=== FILE: README.md ===
# Memorial tribute site — a Dafny model of its core

This project models the server routes and client logic of a memorial website built with Next.js.

- Visitors submit tributes through a form. A tribute holds a name or "Anonymous", a message, optional contact details and an optional photo.
- An administrator logs in, approves or rejects each tribute, and can export all tributes as an HTML page or a zip archive with the photos.
- Approved tributes are listed publicly, newest first.
- The site also has a photo carousel, a settings page that masks the mail API key, and mail helpers that validate addresses and truncate notification fields.

The model follows the program's own structure. There is one module per route or component, plus shared modules.

| module | file | what it holds |
|---|---|---|
| `Wrappers`, `Http` | wrappers.dfy | `Option`, and the JSON response with its status codes |
| `Strings` | strings.dfy | JavaScript `trim`, ASCII `toLowerCase`, `split`, `replace` of one character, prefixes |
| `Clock` | clock.dfy | instants, calendar date-times, the ISO and SQLite text forms, and their text order |
| `Records` | records.dfy | the `tributes` and `admin_sessions` tables and their invariants |
| `Sessions` | sessions.dfy | the admin session gate, login, logout |
| `SessionExpiry` | session_expiry.dfy | the gate's expiry test on the stored text (see Findings) |
| `Listing` | listing.dfy | `ORDER BY created_at DESC`, and the public listing's filter and projection |
| `Moderation` | moderation.dfy | the admin `GET` and `PATCH` of tributes |
| `Intake` | intake.dfy | `POST /api/tributes`: validation, image upload, insertion |
| `Form` | form.dfy | the client form's checks, payload and reset |
| `Escape` | escape.dfy | the exporter's `sanitizeText` |
| `Extension` | extension.dfy | `getFileExtension`, with the regular expression spelled out |
| `Export` | export.dfy | safe file names, image sources, tribute cards, `generateHTML` |
| `Archive` | archive.dfy | the zip export and its README |
| `Gallery` | gallery.dfy | the carousel index arithmetic |
| `Secrets` | secrets.dfy | `GET /api/admin/secrets` |
| `Email` | email.dfy | address validation, admin list parsing, pre-send checks, notification fields |

Some inputs are parameters, not computed. These are the clock, `uuidv4`, `Math.random`, the database row id, `bcrypt.compare`, `toLocaleDateString` and `toISOString().split('T')[0]`. The outcome of each network call is also a parameter: the bucket `put`, each image `fetch`, and the Resend POST. The `validator` and `DOMPurify` routines are uninterpreted function fields of `Email.Libraries`. A missing environment binding (`DB`, `IMAGES`, the hash or the API key) is an `Option` that is `None`.

## Model

| member | source | states |
|---|---|---|
| Sessions.ValidateAdminSession | src/app/api/admin/tributes/route.ts:4-24 | the gate passes exactly when the cookie is non-empty, the database is bound, and the cookie's session row expires after now |
| Sessions.Login | src/app/api/auth/login/route.ts:6-69 | success exactly for a JSON body with a non-empty password, a configured hash and a matching password; the failure statuses are 500, 400, 500 and 401, checked in the route's order; a failure changes no table and sets no cookie; success adds exactly the new session, expiring 24 hours later, and sets a cookie with the same id and expiry |
| Sessions.LoginKeepsSessions | src/app/api/auth/login/route.ts:41-46 | login never alters or removes an existing session; the table grows by one exactly when login succeeds |
| Sessions.LoginThenValid | src/app/api/auth/login/route.ts:37-55 | the cookie set by a successful login passes the session gate at the login instant |
| Sessions.LoginWithoutDatabase | src/app/api/auth/login/route.ts:41-60 | without a database, login still answers but its cookie never passes the gate |
| Sessions.Logout | src/app/api/auth/logout/route.ts:4-38 | logout always succeeds and clears the cookie; with a cookie and a database it deletes exactly that session row; the tributes are never touched |
| Sessions.LogoutIdempotent | src/app/api/auth/logout/route.ts:9-17 | logging out twice with the same cookie leaves the same state as once |
| Sessions.LogoutInvalidates | src/app/api/auth/logout/route.ts:9-17 | after logout the cookie's id fails the gate at every later time |
| SessionExpiry.AsWrittenAcceptance | src/app/api/admin/tributes/route.ts:18-21 | the gate's text comparison accepts a session exactly when now is before its expiry or on the same UTC date |
| SessionExpiry.ExpiredSessionAccepted | src/app/api/admin/tributes/route.ts:18-21 | a session that expired at 01:00 is still accepted at 05:00 the same day |
| SessionExpiry.CorrectedAcceptance | src/app/api/auth/login/route.ts:39-45 | comparing against the time in the same ISO form as the stored expiry accepts exactly while the expiry lies in the future |
| Clock.IsoTextOrder | src/app/api/auth/login/route.ts:45 | for valid date-times, the character order of `toISOString` texts is the order in time |
| Clock.Decimal | src/app/api/tributes/route.ts:55 | `String(n)` of a natural number is a non-empty string of digits |
| Clock.DecimalValue | src/app/api/tributes/route.ts:55 | the digits of `String(n)`, read left to right, spell n, and there is no leading zero unless n is 0 |
| Clock.DecimalInjective | src/app/api/tributes/route.ts:55 | different numbers get different numerals, so the upload key's timestamp identifies the instant |
| Clock.DigitsValueFits | src/app/api/auth/login/route.ts:45 | a field below 10^w written zero-padded to w digits, as `toISOString` writes it, spells the field's value |
| Clock.Pow10Numeral | src/app/api/tributes/route.ts:55 | 10^w is written as a one followed by w zeros, the smallest number with w + 1 digits |
| Listing.SortedRows | src/app/api/admin/tributes/route.ts:46-50 | the listing holds every stored row exactly once, newest first |
| Listing.InsertKeepsSorted | src/app/api/admin/tributes/route.ts:49 | placing a row after every row at least as new keeps the newest-first order |
| Listing.HeadIsNewest | src/app/api/tributes/approved/route.ts:17-22 | the first row of a newest-first sequence is at least as new as every later row |
| Listing.SortedCons | src/app/api/tributes/approved/route.ts:17-22 | a row at least as new as every row of a newest-first sequence can be put in front and the order still holds |
| Listing.ApprovedRowsSorted | src/app/api/tributes/approved/route.ts:17-22 | keeping only approved rows preserves the newest-first order |
| Listing.ApprovedRowsDistinct | src/app/api/tributes/approved/route.ts:17-22 | the filter never duplicates a row |
| Listing.Project | src/app/api/tributes/approved/route.ts:18 | the public projection keeps a row's id, name, message, image path, creation time and approval time unchanged; its type has no email, phone, note or approval flag |
| Listing.PublicRowsFacts | src/app/api/tributes/approved/route.ts:17-22 | the public listing is newest first; it holds the projection of every approved row, and only approved rows |
| Listing.PublicListing | src/app/api/tributes/approved/route.ts:5-35 | a missing database answers 500 "Database not available"; otherwise the response is that listing |
| Moderation.Moderate | src/app/api/admin/tributes/route.ts:93-99 | the update sets `approved`; `approved_at` is set exactly when approving, and is then the current time; the note becomes `admin_notes \|\| null`; every other column and every other row is unchanged; an unknown id changes nothing |
| Moderation.ModerateKeepsWellKeyed | src/app/api/admin/tributes/route.ts:95-99 | every row stays stored under its own id |
| Moderation.ModerateKeepsApprovalConsistent | src/app/api/admin/tributes/route.ts:94-99 | on every row, `approved` holds exactly when `approved_at` is set, before and after the update |
| Moderation.LastPatchWins | src/app/api/admin/tributes/route.ts:95-99 | of two updates of one row, the later one alone decides the result |
| Moderation.RejectIdempotent | src/app/api/admin/tributes/route.ts:95-99 | rejecting a row twice with the same note is rejecting it once |
| Moderation.ModerateCommutes | src/app/api/admin/tributes/route.ts:95-99 | updates of different rows can be applied in either order |
| Moderation.Patch | src/app/api/admin/tributes/route.ts:65-113 | success exactly for a valid session, a JSON body, a truthy id and a boolean `approved`; the failures are 401, then 500 for a body that is not JSON, then 400; a failure changes nothing; success applies the update and says "approved" or "rejected" |
| Moderation.PatchKeepsInvariants | src/app/api/admin/tributes/route.ts:65-113 | a PATCH of any kind keeps both table invariants |
| Moderation.AdminListing | src/app/api/admin/tributes/route.ts:26-63 | without a valid session the answer is 401; with one, every row exactly once, newest first, including email, phone and notes |
| Intake.PresentIffNotBlank | src/app/api/tributes/route.ts:14-28 | `field?.trim()` is truthy exactly when the field is present and not all whitespace |
| Intake.SplitAllowed | src/app/api/tributes/route.ts:43-55 | each accepted type splits at `/` into exactly two parts, "image" and one of jpeg, png, gif and webp |
| Intake.Subtype | src/app/api/tributes/route.ts:43-55 | for an accepted type, `type.split('/')[1]` is the part after "image/", one of jpeg, png, gif and webp |
| Intake.NewTribute | src/app/api/tributes/route.ts:79-89 | the inserted row waits for approval, has no approval time or note, is named "Anonymous" when anonymous, and stores an empty email or phone as null |
| Intake.Refusal | src/app/api/tributes/route.ts:14-49 | the form checks in the route's order, each with its 400 message: message, name, size, type; no refusal exactly when the message and name are given and any non-empty image is at most 10 MiB of an accepted type |
| Intake.Stored | src/app/api/tributes/route.ts:51-65 | the bucket gains the image under its upload key exactly when there is a non-empty image and a bucket; otherwise it is unchanged |
| Intake.Store | src/app/api/tributes/route.ts:51-105 | after the checks: a throwing upload answers 500 "Failed to upload image" with nothing stored; a missing database or a throwing INSERT answers 500 "Failed to save tribute" with the image already stored; otherwise the new pending row is inserted under the new id and the confirmation returned |
| Intake.Submit | src/app/api/tributes/route.ts:3-114 | the checks run in the route's order, with their messages and statuses: unreadable form, message, name, size, type, upload, database or INSERT; success exactly when every check passes, the upload (if any) succeeds, the database is bound and the INSERT does not throw; a failure leaves the table unchanged; the bucket changes only by gaining the accepted non-empty image under its upload key |
| Intake.SubmitKeepsInvariants | src/app/api/tributes/route.ts:76-89 | a submission keeps both table invariants, and the new row is pending |
| Intake.UploadWithoutDatabase | src/app/api/tributes/route.ts:51-105 | without a database, or when the INSERT throws, the image is still stored, the table is unchanged, and the answer is 500 "Failed to save tribute" |
| Intake.SizeBoundary | src/app/api/tributes/route.ts:33-40 | an image of exactly 10 MiB is accepted and one byte more is refused |
| Intake.EmptyFileIsNoImage | src/app/api/tributes/route.ts:33 | a zero-byte file of any type is ignored: no upload, no image reference |
| Intake.ImageUrlShape | src/app/api/tributes/route.ts:54-64 | the stored path starts with `/api/images/tribute-` and ends with `.` and the MIME subtype |
| Form.HandleFileChange | src/app/components/TributeForm.tsx:36-46 | a file over 10 MiB raises an alert and is not kept; any other chosen file is kept; no file changes nothing |
| Form.Payload | src/app/components/TributeForm.tsx:66-75 | the form data sends "Anonymous" as the name when anonymous, sends the flag as "true" or "false", and attaches the chosen file |
| Form.Blocked | src/app/components/TributeForm.tsx:51-60 | the form is sent exactly when the trimmed message is non-empty and the visitor is anonymous or gave a non-blank name; a blank message gives "Please share your message or memory." first, and otherwise a missing name gives `Please enter your name or check "Submit anonymously".` |
| Form.HandleSubmit | src/app/components/TributeForm.tsx:48-98 | a blocked form alerts and changes nothing; a sent form resets to empty on an ok response, and otherwise keeps its fields and shows the error |
| Form.ClientMatchesServer | src/app/components/TributeForm.tsx:51-60 | the client's checks let a form through exactly when the route's message and name checks accept its payload |
| Form.SentFormPassesChecks | src/app/components/TributeForm.tsx:36-80 | a form the client sends is accepted by the route, or refused for its file type, or meets a server failure; it never fails the message, name or size checks |
| Form.InitialIsEmpty | src/app/components/TributeForm.tsx:15-24 | the form starts empty, not anonymous, with no file, and sending it at once raises the message alert |
| Escape.EscapeChar | src/app/components/TributeExporter.ts:340-347 | a character's escape starts with `&` exactly when it is one of the five special characters |
| Escape.SanitizeIsSinglePass | src/app/components/TributeExporter.ts:340-347 | the five chained replacements equal escaping each character once, because `&` is replaced first |
| Escape.NoRawMarkup | src/app/components/TributeExporter.ts:340-347 | the escaped text holds no raw `<`, `>`, `"` or `'` |
| Escape.SanitizeLength | src/app/components/TributeExporter.ts:340-347 | the escaped length grows by 4 for each `&`, 3 for each `<` and `>`, 5 for each `"` and 4 for each `'` |
| Escape.SanitizeIdentity | src/app/components/TributeExporter.ts:340-347 | escaping leaves a text unchanged exactly when it holds none of the five characters |
| Escape.UnescapeSanitize | src/app/components/TributeExporter.ts:340-347 | decoding the five entities recovers the original text |
| Extension.RegexMatchIsRun | src/app/components/TributeExporter.ts:416 | a match of `\.([a-zA-Z0-9]+)(?:\?\|$)` at a dot captures the whole alphanumeric run after the dot; backtracking cannot shorten it |
| Extension.GetFileExtension | src/app/components/TributeExporter.ts:415-432 | the extension is always a non-empty lower-case alphanumeric word |
| Extension.SecondBranchDead | src/app/components/TributeExporter.ts:421-429 | whenever the `/api/images/` fallback is reached, its end-anchored pattern finds nothing |
| Extension.ExtensionIsFirstMatch | src/app/components/TributeExporter.ts:415-432 | the extension is the lower-cased group of the leftmost match, or "jpg" when nothing matches |
| Extension.ExtensionAfterDot | src/app/components/TributeExporter.ts:416-419 | a text whose only dot is followed by an ASCII alphanumeric tail has that tail, lower-cased, as extension |
| Extension.ExtensionAfterOnlyDot | src/app/components/TributeExporter.ts:416-419 | a text whose only dot is followed by a lower-case alphanumeric tail has that tail as extension |
| Extension.ExampleQueryString | src/app/components/TributeExporter.ts:416-418 | `a.PNG?v=1` has extension "png" |
| Extension.ExampleNoExtension | src/app/components/TributeExporter.ts:431 | `https://x.io/photo` falls back to "jpg" |
| Export.SafeName | src/app/components/TributeExporter.ts:358 | a safe name consists only of ASCII letters, digits and dashes |
| Export.SafeNameLength | src/app/components/TributeExporter.ts:358 | a safe name has one character per UTF-16 code unit of the name |
| Export.SafeNamePointwise | src/app/components/TributeExporter.ts:358 | without astral characters, letters and digits stay in place and every other character becomes one dash |
| Export.SafeNameIdempotent | src/app/components/TributeExporter.ts:358 | making a safe name safe again changes nothing |
| Export.SafeNameAppend | src/app/components/TributeExporter.ts:358 | the replacement works character by character: the safe name of a concatenation is the concatenation of the safe names |
| Export.FallbackUnused | src/app/components/TributeExporter.ts:360 | the `\|\| 'jpg'` at the call sites never applies |
| Export.ImageFileName | src/app/components/TributeExporter.ts:358-361 | an image file name is the safe name, a dash, the creation date, a dot and the path's file extension |
| Export.FileNameParts | src/app/components/TributeExporter.ts:358-361 | an image stored at a path whose only dot precedes an ASCII alphanumeric extension is named safe name, dash, date, dot, that extension lower-cased |
| Export.ImageSrc | src/app/components/TributeExporter.ts:349-363 | no image gives an empty source; linked mode keeps an `http` URL and prefixes the origin otherwise; downloaded mode points into `images/` |
| Export.LinkedSrcEndsWithUrl | src/app/components/TributeExporter.ts:352-355 | a linked source always ends with the stored URL |
| Export.CardOf | src/app/components/TributeExporter.ts:365-412 | a card shows the escaped name and message, escaped contact details and notes only when truthy, the approved or pending badge, and an image exactly when the row has one |
| Export.PartitionComplete | src/app/components/TributeExporter.ts:32-33 | the approved and pending lists together are a permutation of all tributes |
| Export.ApprovedKeepsOrder | src/app/components/TributeExporter.ts:32 | the approved filter keeps the input order |
| Export.PendingKeepsOrder | src/app/components/TributeExporter.ts:33 | the pending filter keeps the input order |
| Export.WithImagesKeepsOrder | src/app/components/TributeExporter.ts:450 | the image filter keeps the input order |
| Export.GenerateHtml | src/app/components/TributeExporter.ts:22-327 | the page prints the three counts and the export type; each section appears exactly when it is non-empty; the empty notice appears exactly when there are no tributes; the footer names the count |
| Export.DocumentCoversAll | src/app/components/TributeExporter.ts:296-315 | the page shows every tribute exactly once, approved before pending, and shows nothing else for an empty list |
| Export.SectionOfTribute | src/app/components/TributeExporter.ts:296-308 | a tribute's card is in the approved section exactly when it is approved |
| Export.FooterPlural | src/app/components/TributeExporter.ts:318 | the footer writes "1 tribute" but "0 tributes" and "2 tributes" |
| Export.ExampleSafeName | src/app/components/TributeExporter.ts:358 | "O'Brien" becomes "O-Brien" |
| Export.ExampleFileName | src/app/components/TributeExporter.ts:358-361 | an image stored as `<path>.PNG` of "O'Brien" on 2025-03-01 is named `O-Brien-2025-03-01.png` |
| Archive.ZipImages | src/app/components/TributeExporter.ts:457-485 | the folder holds exactly the names of the images whose fetch succeeded |
| Archive.ZipImagesLastWins | src/app/components/TributeExporter.ts:472-477 | an image whose name no later fetched image reuses keeps its own bytes |
| Archive.ImageNames | src/app/components/TributeExporter.ts:471-475 | the names are computed per tribute, in list order, with the same expression as the page |
| Archive.GenerateReadme | src/app/components/TributeExporter.ts:532-587 | the README counts all, approved, pending and image tributes, and lists one line per image in list order |
| Archive.ExportZip | src/app/components/TributeExporter.ts:444-505 | the zip holds the downloaded-mode page and the README; the images folder exists exactly when some tribute has an image and holds the names of the successful fetches |
| Archive.NamesAgree | src/app/components/TributeExporter.ts:444-489 | for each image, the page, the README and the zip use the same file name; the zip holds it when its fetch succeeded |
| Archive.EntriesComeFromFetches | src/app/components/TributeExporter.ts:461-482 | every zip entry comes from a tribute with an image whose fetch succeeded |
| Archive.AllFetchesFail | src/app/components/TributeExporter.ts:461-467 | when every fetch fails the folder exists but is empty |
| Archive.UploadedImageExtension | src/app/api/tributes/route.ts:55-64 | an image the site stored itself is exported with its MIME subtype as extension |
| Gallery.JsRem | src/app/components/PhotoGallery.tsx:19-23 | JavaScript's `%` for a positive divisor: the result is in [0, n) for a non-negative dividend, and non-positive for a negative one |
| Gallery.NextInRange | src/app/components/PhotoGallery.tsx:18-20 | the next arrow keeps the index in [0, n) and wraps from the last photo to the first |
| Gallery.PrevInRange | src/app/components/PhotoGallery.tsx:22-24 | the previous arrow keeps the index in [0, n) and wraps from the first photo to the last |
| Gallery.WithoutOffsetGoesNegative | src/app/components/PhotoGallery.tsx:23 | without the `+ n`, going back from the first photo would give -1 |
| Gallery.NextPrevInverse | src/app/components/PhotoGallery.tsx:18-24 | back after forward, and forward after back, both return to the same photo |
| Gallery.FullCycle | src/app/components/PhotoGallery.tsx:19 | n presses of next return to the starting photo |
| Gallery.ButtonIndices | src/app/components/PhotoGallery.tsx:99-102 | the thumbnails pass the indices 0 to n - 1, one each, in order |
| Gallery.ApplyKeepsRange | src/app/components/PhotoGallery.tsx:18-34 | the arrows, the timer and a rendered thumbnail each keep the index among the photos |
| Gallery.RunInRange | src/app/components/PhotoGallery.tsx:7-34 | starting from index 0, any sequence of events the page can raise keeps `photos[index]` defined |
| Gallery.Show | src/app/components/PhotoGallery.tsx:62-93 | the shown image is `photos[index]`, and the counter reads index + 1 of n, so it lies between 1 and n |
| Gallery.ShownAfterEvents | src/app/components/PhotoGallery.tsx:7-93 | after any events the page can raise the index stays among the photos; with no events the first photo shows as 1 of 7, after a thumbnail or dot the clicked photo shows with its own counter, and one press of the left arrow shows the last photo as 7 of 7 |
| Gallery.RunTicks | src/app/components/PhotoGallery.tsx:18-34 | k timer ticks from the start move the index as k presses of the next arrow |
| Gallery.AutoAdvance | src/app/components/PhotoGallery.tsx:18-34 | left alone, the carousel shows photo k + 1 as "k + 1 of 7" after k ticks, and the first photo again after seven |
| Secrets.SliceLast | src/app/api/admin/secrets/route.ts:48 | `slice(-k)` gives the last k characters, or the whole of a shorter text |
| Secrets.Mask | src/app/api/admin/secrets/route.ts:48 | the masked key is six stars followed by a suffix of the key, 6 + min(4, length) characters long |
| Secrets.OrNotSet | src/app/api/admin/secrets/route.ts:49-50 | an absent or empty setting reads "Not Set"; a set one reads as itself |
| Secrets.View | src/app/api/admin/secrets/route.ts:47-51 | the body reports the masked key and the two addresses, or "Not Set" for each one unset |
| Secrets.GetSecrets | src/app/api/admin/secrets/route.ts:28-64 | the settings are returned exactly when the session is valid; otherwise the answer is 401, or 500 when the session query throws |
| Secrets.NoSessionNoSecrets | src/app/api/admin/secrets/route.ts:30-37 | a failed gate returns no configuration value |
| Secrets.MaskRevealsAtMostFour | src/app/api/admin/secrets/route.ts:48 | a key of at least four characters shows only its last four; a shorter key is shown whole; the mask is at most 10 characters |
| Secrets.MaskDependsOnTail | src/app/api/admin/secrets/route.ts:48 | two keys with the same last four characters look the same |
| Secrets.EmptyIsNotSet | src/app/api/admin/secrets/route.ts:48-50 | an empty setting is reported like a missing one |
| Email.Normalize | src/app/utils/email.ts:23 | the normalised address has no surrounding whitespace and no upper-case ASCII letter |
| Email.NormalizeLowersMiddle | src/app/utils/email.ts:23 | the normalised address is the input's middle slice, between a blank prefix and a blank suffix, lower-cased |
| Strings.Trim | src/app/utils/email.ts:23 | `trim` returns the slice of the input between a blank prefix and a blank suffix, and that slice neither starts nor ends with whitespace |
| Email.ValidateAndSanitize | src/app/utils/email.ts:19-38 | an address is kept exactly when it is non-empty and its normalised form passes `isEmail` and has at most 254 characters; then the normalised form is returned |
| Email.ValidateIdempotent | src/app/utils/email.ts:19-38 | what validation returns, it accepts again unchanged |
| Email.ValidateFixedPoints | src/app/utils/email.ts:19-38 | the addresses validation leaves unchanged are exactly the non-empty trimmed, lower-case, accepted, short ones |
| Email.ValidOnly | src/app/utils/email.ts:48-51 | filtering never lengthens the list |
| Email.ValidOnlySanitized | src/app/utils/email.ts:48-51 | every kept address is a sanitized one: trimmed, lower-case, accepted by `isEmail` and within the length limit |
| Email.ValidOnlyAppend | src/app/utils/email.ts:48-51 | filtering keeps the segment order: the filter of a concatenation is the concatenation of the filters |
| Email.ValidOnlySingle | src/app/utils/email.ts:48-51 | one segment yields its validated form, or nothing |
| Email.ValidOnlyMembers | src/app/utils/email.ts:48-51 | an address is kept exactly when some segment validates to it |
| Email.ValidOnlyOfSanitized | src/app/utils/email.ts:114-118 | a list that is already sanitized passes the filter unchanged |
| Email.ParseAdminEmails | src/app/utils/email.ts:45-52 | the empty setting gives no address; there are at most as many addresses as comma-separated segments, each one sanitized |
| Email.EmptyGuardRedundant | src/app/utils/email.ts:46 | without the empty-string guard the result would be the same |
| Email.ParsedFromSegment | src/app/utils/email.ts:45-52 | an address is in the parsed list exactly when it is the validated form of one of the comma-separated segments: none is invented and no valid segment is dropped |
| Email.SendEmail | src/app/utils/email.ts:107-159 | no request is made without an API key, then without a valid recipient, then without a valid sender, each with its own error; once the key and a recipient pass, the request is made exactly when the sender (`from`, or the configured address when `from` is empty) validates to a non-empty address; a request carries the key, the validated recipients, the escaped first 998 characters of the subject and the purified body; success exactly when the request is delivered; an error response gives "Resend API error: " and its text, and a thrown error gives "Failed to send email: " and its description |
| Email.SenderChoice | src/app/utils/email.ts:129-130 | the sender is the given `from` when it is non-empty, else the configured address, normalised |
| Email.SubjectCut | src/app/utils/email.ts:125 | subjects that agree on their first 998 characters produce the same request |
| Email.SendEmailToAdmins | src/app/utils/email.ts:164-176 | an empty admin list fails with "No admin emails configured" before anything else; otherwise the mail goes to the parsed admins |
| Email.AdminsAllAddressed | src/app/utils/email.ts:164-176 | every parsed admin survives the second validation, so a request goes to all of them |
| Email.CutEscape | src/app/utils/email.ts:203-205 | an optional field is present exactly when it is truthy, and is then escaped after truncation |
| Email.SanitizeNote | src/app/utils/email.ts:199-212 | every field is cut to its limit (100, 5000, 254, 20, 500) before escaping; a kept image is empty or passes the http(s) URL check |
| Email.ImageKeptIffUrl | src/app/utils/email.ts:209-212 | a truthy image is kept exactly when its escaped form is empty or an http(s) URL |
| Email.TruncatedBeforeEscaping | src/app/utils/email.ts:200-207 | characters beyond the name and message limits never reach the notification |
| Email.NotificationEmail | src/app/utils/email.ts:181-311 | the notification shows the sanitized name and date; it shows email and phone lines only when present; the image link is shown exactly when the sanitized image URL is non-empty, and it is then an http(s) URL; line breaks become `<br>`; the dashboard link has the site-URL fallback |
| Email.MessageHasNoNewline | src/app/utils/email.ts:294 | no raw line break survives in the message markup |

## Left out

- I/O is not modelled: cookies, the request body stream, the D1 and R2 bindings, `fetch`, `downloadBlob`, `loadJSZip` script injection, JSZip compression and the zip byte layout. The model has the tables, the bucket's keys, the folder's entries and the outcome of each call.
- Exceptions are modelled only where a route catches one and answers with its own message. These are a body that is not JSON, the upload, the insert, the session query of the secrets route, and the Resend POST. Other throws, such as a failing UPDATE in the PATCH, are not modelled.
- The static HTML and CSS of the exported page, the zip README and the notification mail are left out. Each is modelled by its variable parts: counts, sections, cards, lines and links.
- `toLocaleDateString` and `toISOString().split('T')[0]` are parameters (`exportDate`, `dayOf`, `formatDate`). The calendar arithmetic from instants to dates is not modelled.
- `Math.random().toString(36).substr(2, 9)` and `Date.now()` are parameters of the upload key.
- Strings are sequences of Unicode scalar values. Only `Export.SafeName` counts UTF-16 code units, turning an astral character into two dashes.
- Email.SanitizeNote: `substring` limits count characters, not UTF-16 code units, so a cut inside a surrogate pair is not modelled.
- Email.SendEmail: the same applies to the 998-character subject limit.
- Strings.ToLower: `toLowerCase` is modelled on ASCII letters only, without Unicode case mapping.
- `validator.isEmail`, `validator.isURL`, `validator.escape` and `DOMPurify.sanitize` are uninterpreted. The only fact assumed about them is that `isEmail` rejects the empty text, and that is stated as a `requires` where it is needed.
- Listing.SortedRows: rows with equal `created_at` come out in some order; SQLite's order among ties is not modelled.
- Archive.ZipImages: images are added in list order. With `Promise.all` the downloads finish in any order, so when two images share a file name, which one survives depends on timing. `Archive.ZipImagesLastWins` therefore says nothing about names that repeat.
- Moderation.Patch: `id` is an integer. A JSON id of another type, such as a string, is not modelled, and neither is `approved` given as a non-boolean value other than absent.
- Sessions.ValidateAdminSession: the gate compares expiry and now as instants, which is the corrected test. The route compares ISO text with `datetime('now')` text, and that also accepts a session until the end of its expiry's UTC day (see Findings and `SessionExpiry.AsWrittenAcceptance`). Moderation.Patch, Moderation.AdminListing and Secrets.GetSecrets use this gate, so they too accept a session only while its expiry lies after now.
- Moderation.AdminListing: the route's 500 "Database not available" branch is not modelled separately. Without a database the session gate already fails, so the answer is 401 before that branch is reached.
- The form's `handleInputChange` is not modelled on its own; the model takes the field values as given.
- The carousel's `setInterval` timing and cleanup are not modelled. Each tick is an event.
- `getAdminNotificationEmails`, `getSenderEmailAddress` and `getSenderEmail` only return the constants `Email.AdminNotificationEmails` and `Email.SenderEmailAddress`, which the model uses directly.
- `sanitizeEmailContent`'s allow-lists are part of the uninterpreted `purify`.
- The image-serving route `src/app/api/images/[filename]/route.ts` and the page components are not part of this model.

## Findings

| source | as written | input that shows it | evidently intended | confidence | as-written member | corrected member |
|---|---|---|---|---|---|---|
| src/app/api/admin/tributes/route.ts:18-21 | Login stores `expiresAt.toISOString()` (`2025-03-02T01:00:00.000Z`). The gate compares it as TEXT with `datetime('now')` (`2025-03-02 05:00:00`). On the expiry date `'T'` sorts after `' '`, so the session passes until the end of that UTC day. The same test is in src/app/api/admin/secrets/route.ts:20-23. | a session expiring 2025-03-02 01:00 UTC, checked at 05:00 UTC the same day | a session is accepted only while its expiry lies in the future | not executed | SessionExpiry.ExpiredSessionAccepted | SessionExpiry.CorrectedAcceptance |

The rest of the model uses the corrected test. `Sessions.ValidateAdminSession` compares instants, which is the order `SessionExpiry.CorrectedAcceptance` proves for the ISO text. `SessionExpiry.AsWrittenAcceptance` characterises the test as written, for all inputs.

=== FILE: archive.dfy ===
/**
 * The zip export (`exportWithDownloadedImages`, `generateReadme`): which image entries the
 * archive holds given the outcome of each image fetch, and how the page, the zip and the
 * README name the same files.
 */
module Archive {
  import opened Wrappers
  import opened Strings
  import opened Clock
  import opened Records
  import opened Extension
  import opened Export
  import opened Intake

  /** The bytes a fetch returned. */
  type Blob = seq<bv8>

  /** `images/` folder contents: file name to image bytes. */
  type ImageFolder = map<string, Blob>

  /** Each image written in list order, so of two images with the same name the later one stays. */
  function ZipImages(names: seq<string>, fetched: seq<Option<Blob>>): (m: ImageFolder)
    requires |names| == |fetched|
    ensures m.Keys == set i | 0 <= i < |names| && fetched[i].Some? :: names[i]
    decreases |names|
  {
    if |names| == 0 then map[]
    else
      var n := |names| - 1;
      var m := ZipImages(names[..n], fetched[..n]);
      assert forall i :: 0 <= i < n ==> names[..n][i] == names[i] && fetched[..n][i] == fetched[i];
      if fetched[n].Some? then m[names[n] := fetched[n].value] else m
  }

  /** An entry holds the bytes of the last successful fetch that has its name. */
  lemma {:induction false} ZipImagesLastWins(names: seq<string>, fetched: seq<Option<Blob>>, i: nat)
    requires |names| == |fetched|
    requires i < |names| && fetched[i].Some?
    requires forall j :: i < j < |names| && fetched[j].Some? ==> names[j] != names[i]
    ensures ZipImages(names, fetched)[names[i]] == fetched[i].value
    decreases |names|
  {
    var n := |names| - 1;
    assert forall k :: 0 <= k < n ==> names[..n][k] == names[k] && fetched[..n][k] == fetched[k];
    if i < n {
      ZipImagesLastWins(names[..n], fetched[..n], i);
    }
  }

  /** The file names of the tributes with images, in list order. */
  function ImageNames(w: seq<Tribute>, dayOf: Instant -> string): (names: seq<string>)
    requires forall i :: 0 <= i < |w| ==> HasImage(w[i])
    ensures |names| == |w|
    ensures forall i :: 0 <= i < |w| ==> names[i] == ImageFileName(w[i], dayOf)
  {
    seq(|w|, i requires 0 <= i < |w| => ImageFileName(w[i], dayOf))
  }

  /** The README's statistics and its list of image files. */
  datatype Readme = Readme(total: nat, approved: nat, pending: nat, images: nat, files: seq<string>)

  /** One line of the README's file list. */
  function ReadmeLine(t: Tribute, dayOf: Instant -> string): string
    requires HasImage(t)
  {
    "  " + ImageFileName(t, dayOf) + " - Photo from " + t.name
  }

  /** `generateReadme`. */
  function GenerateReadme(ts: seq<Tribute>, dayOf: Instant -> string): (r: Readme)
    ensures r.total == |ts| && r.approved == |Approved(ts)| && r.pending == |Pending(ts)|
    ensures r.images == |WithImages(ts)| == |r.files|
    ensures forall i :: 0 <= i < |r.files| ==> r.files[i] == ReadmeLine(WithImages(ts)[i], dayOf)
  {
    var w := WithImages(ts);
    Readme(|ts|, |Approved(ts)|, |Pending(ts)|, |w|,
           seq(|w|, i requires 0 <= i < |w| => ReadmeLine(w[i], dayOf)))
  }

  /** The archive: the page, the `images/` folder when some tribute has an image, and the README. */
  datatype Zip = Zip(html: Document, images: Option<ImageFolder>, readme: Readme)

  /**
   * `exportWithDownloadedImages`. `fetched[i]` is the outcome of fetching the i-th image;
   * a failed fetch is skipped and the export goes on.
   */
  function ExportZip(ts: seq<Tribute>, fetched: seq<Option<Blob>>, dayOf: Instant -> string, exportDate: string): (z: Zip)
    requires |fetched| == |WithImages(ts)|
    ensures z.html == GenerateHtml(ts, Downloaded(dayOf), exportDate)
    ensures z.readme == GenerateReadme(ts, dayOf)
    ensures z.images.Some? <==> |WithImages(ts)| > 0
    ensures z.images.Some? ==>
      var w := WithImages(ts);
      z.images.value.Keys == set i | 0 <= i < |w| && fetched[i].Some? :: ImageNames(w, dayOf)[i]
  {
    var w := WithImages(ts);
    Zip(GenerateHtml(ts, Downloaded(dayOf), exportDate),
        if |w| > 0 then Some(ZipImages(ImageNames(w, dayOf), fetched)) else None,
        GenerateReadme(ts, dayOf))
  }

  /**
   * For every tribute with an image, the page points at `images/<name>`, the README lists
   * `<name>`, and the zip holds `<name>` exactly when some image of that name was fetched.
   */
  lemma NamesAgree(ts: seq<Tribute>, fetched: seq<Option<Blob>>, dayOf: Instant -> string, exportDate: string, i: nat)
    requires |fetched| == |WithImages(ts)|
    requires i < |WithImages(ts)|
    ensures var z := ExportZip(ts, fetched, dayOf, exportDate); var t := WithImages(ts)[i];
      HasImage(t) &&
      var name := ImageFileName(t, dayOf);
      && CardOf(t, Downloaded(dayOf)).imageSrc == Some("images/" + name)
      && StartsWith(z.readme.files[i], "  " + name)
      && z.images.Some?
      && (fetched[i].Some? ==> name in z.images.value)
  {
    var w := WithImages(ts);
    var t := w[i];
    var name := ImageFileName(t, dayOf);
    var line := ReadmeLine(t, dayOf);
    LineStartsWithName(name, t.name);
    var z := ExportZip(ts, fetched, dayOf, exportDate);
    assert z.readme.files[i] == line;
    if fetched[i].Some? {
      assert ImageNames(w, dayOf)[i] == name;
    }
  }

  lemma LineStartsWithName(name: string, who: string)
    ensures StartsWith("  " + name + " - Photo from " + who, "  " + name)
  {
    var line := "  " + name + " - Photo from " + who;
    assert line == ("  " + name) + (" - Photo from " + who);
    assert line[..|"  " + name|] == "  " + name;
  }

  /** Every zip entry belongs to a tribute with an image whose fetch succeeded. */
  lemma EntriesComeFromFetches(ts: seq<Tribute>, fetched: seq<Option<Blob>>, dayOf: Instant -> string,
                               exportDate: string, name: string)
    requires |fetched| == |WithImages(ts)|
    requires var z := ExportZip(ts, fetched, dayOf, exportDate); z.images.Some? && name in z.images.value
    ensures var w := WithImages(ts);
      exists i :: 0 <= i < |w| && fetched[i].Some? && ImageFileName(w[i], dayOf) == name
  {
    var w := WithImages(ts);
    var i :| 0 <= i < |w| && fetched[i].Some? && ImageNames(w, dayOf)[i] == name;
    assert ImageFileName(w[i], dayOf) == name;
  }

  /** When every fetch fails the folder exists but is empty. */
  lemma AllFetchesFail(ts: seq<Tribute>, fetched: seq<Option<Blob>>, dayOf: Instant -> string, exportDate: string)
    requires |fetched| == |WithImages(ts)| > 0
    requires forall i :: 0 <= i < |fetched| ==> fetched[i].None?
    ensures ExportZip(ts, fetched, dayOf, exportDate).images == Some(map[])
  {
    var z := ExportZip(ts, fetched, dayOf, exportDate);
    assert z.images.value.Keys == {};
  }

  lemma NoDotInConcat(a: string, b: string)
    requires '.' !in a && '.' !in b
    ensures '.' !in a + b
  {
  }

  lemma NoDotInLowerAlnum(s: string)
    requires forall k :: 0 <= k < |s| ==> IsLowerAlnum(s[k])
    ensures '.' !in s
  {
  }

  /** Every accepted subtype is a non-empty lower-case alphanumeric word. */
  lemma SubtypeWordIsLowerAlnum(r: string)
    requires r in ["jpeg", "png", "gif", "webp"]
    ensures |r| > 0 && forall k :: 0 <= k < |r| ==> IsLowerAlnum(r[k])
  {
    if r == "jpeg" {
    } else if r == "png" {
    } else if r == "gif" {
    } else {
      assert r == "webp";
    }
  }

  /** The extension of `/api/images/tribute-<stamp>-<rand>.<sub>` is sub. */
  lemma UploadPathExtension(stamp: string, rand: string, sub: string)
    requires forall k :: 0 <= k < |stamp| ==> IsLowerAlnum(stamp[k])
    requires forall k :: 0 <= k < |rand| ==> IsLowerAlnum(rand[k])
    requires |sub| > 0 && forall k :: 0 <= k < |sub| ==> IsLowerAlnum(sub[k])
    ensures GetFileExtension("/api/images/" + ("tribute-" + (stamp + ("-" + (rand + ("." + sub)))))) == sub
  {
    var prefix := "/api/images/tribute-";
    var head := prefix + stamp + "-" + rand;
    assert "/api/images/" + ("tribute-" + (stamp + ("-" + (rand + ("." + sub))))) == head + "." + sub;
    NoDotInLowerAlnum(stamp);
    NoDotInLowerAlnum(rand);
    NoDotInConcat(prefix, stamp);
    NoDotInConcat(prefix + stamp, "-");
    NoDotInConcat(prefix + stamp + "-", rand);
    ExtensionAfterOnlyDot(head, sub);
  }

  /** An image the site stored itself is exported with its MIME subtype as extension. */
  lemma UploadedImageExtension(now: nat, rand: string, mime: string)
    requires mime in AllowedTypes
    requires forall k :: 0 <= k < |rand| ==> IsLowerAlnum(rand[k])
    ensures GetFileExtension(ImageUrl(now, rand, mime)) == Subtype(mime)
  {
    var sub := Subtype(mime);
    var stamp := Decimal(now);
    SubtypeWordIsLowerAlnum(sub);
    assert forall k :: 0 <= k < |stamp| ==> IsDigit(stamp[k]);
    assert forall k :: 0 <= k < |stamp| ==> IsLowerAlnum(stamp[k]);
    UploadPathExtension(stamp, rand, sub);
    assert ImageUrl(now, rand, mime) == "/api/images/" + ("tribute-" + (stamp + ("-" + (rand + ("." + sub)))));
  }
}

=== FILE: clock.dfy ===
/**
 * Points in time and the two text forms the site writes them in: `Date.toISOString()`
 * ("YYYY-MM-DDTHH:MM:SS.sssZ") and SQLite's `datetime('now')` ("YYYY-MM-DD HH:MM:SS").
 * SQLite compares such values as TEXT, that is character by character.
 */
module Clock {
  import opened Strings

  /** Milliseconds since the Unix epoch, what `Date.now()` returns. */
  type Instant = int

  const HourMs: int := 60 * 60 * 1000
  const DayMs: int := 24 * HourMs

  /** Calendar fields of a UTC instant. */
  datatype DateTime = DateTime(year: int, month: int, day: int,
                               hour: int, minute: int, second: int, milli: int)
  {
    predicate Valid() {
      0 <= year <= 9999 && 1 <= month <= 12 && 1 <= day <= 31
      && 0 <= hour < 24 && 0 <= minute < 60 && 0 <= second < 60 && 0 <= milli < 1000
    }

    predicate SameDate(other: DateTime) {
      year == other.year && month == other.month && day == other.day
    }
  }

  /** Chronological order of calendar fields. */
  predicate Before(a: DateTime, b: DateTime) {
    if a.year != b.year then a.year < b.year
    else if a.month != b.month then a.month < b.month
    else if a.day != b.day then a.day < b.day
    else if a.hour != b.hour then a.hour < b.hour
    else if a.minute != b.minute then a.minute < b.minute
    else if a.second != b.second then a.second < b.second
    else a.milli < b.milli
  }

  function Pow10(w: nat): (p: nat)
    ensures p >= 1
  {
    if w == 0 then 1 else 10 * Pow10(w - 1)
  }

  function DigitChar(d: nat): (c: char)
    requires d < 10
    ensures IsDigit(c)
  {
    ('0' as int + d) as char
  }

  /** The last `width` decimal digits of n, zero-padded. */
  function Digits(n: nat, width: nat): (r: string)
    ensures |r| == width
    ensures forall i :: 0 <= i < |r| ==> IsDigit(r[i])
  {
    if width == 0 then "" else Digits(n / 10, width - 1) + [DigitChar(n % 10)]
  }

  /** The decimal numeral of n, as `String(n)` writes it. */
  function Decimal(n: nat): (r: string)
    ensures |r| > 0
    ensures forall i :: 0 <= i < |r| ==> IsDigit(r[i])
  {
    if n < 10 then [DigitChar(n)] else Decimal(n / 10) + [DigitChar(n % 10)]
  }

  /** The number a string of decimal digits spells, read left to right. */
  function DigitsValue(s: string): nat
    requires forall i :: 0 <= i < |s| ==> IsDigit(s[i])
  {
    if |s| == 0 then 0
    else
      assert IsDigit(s[|s| - 1]);
      10 * DigitsValue(s[..|s| - 1]) + (s[|s| - 1] as int - '0' as int)
  }

  /** Appending one digit multiplies the value by ten and adds the digit. */
  lemma DigitsValueSnoc(s: string, d: nat)
    requires forall i :: 0 <= i < |s| ==> IsDigit(s[i])
    requires d < 10
    ensures forall i :: 0 <= i < |s + [DigitChar(d)]| ==> IsDigit((s + [DigitChar(d)])[i])
    ensures DigitsValue(s + [DigitChar(d)]) == 10 * DigitsValue(s) + d
  {
    var t := s + [DigitChar(d)];
    assert t[..|t| - 1] == s;
  }

  /** `String(n)` spells n, with no leading zero unless n is 0. */
  lemma {:induction false} DecimalValue(n: nat)
    ensures DigitsValue(Decimal(n)) == n
    ensures |Decimal(n)| == 1 || Decimal(n)[0] != '0'
  {
    if n < 10 {
      assert Decimal(n) == [] + [DigitChar(n)];
      DigitsValueSnoc([], n);
    } else {
      DecimalValue(n / 10);
      DigitsValueSnoc(Decimal(n / 10), n % 10);
      assert Decimal(n)[0] == Decimal(n / 10)[0];
    }
  }

  /** Two numbers have the same numeral only if they are equal. */
  lemma DecimalInjective(n: nat, m: nat)
    requires Decimal(n) == Decimal(m)
    ensures n == m
  {
    DecimalValue(n);
    DecimalValue(m);
  }

  /** A number below 10^w, written in w digits, spells itself. */
  lemma {:induction false} DigitsValueFits(n: nat, w: nat)
    requires n < Pow10(w)
    ensures DigitsValue(Digits(n, w)) == n
  {
    if w == 0 {
      assert n == 0;
    } else {
      assert n / 10 < Pow10(w - 1) by {
        assert n < 10 * Pow10(w - 1);
      }
      DigitsValueFits(n / 10, w - 1);
      DigitsValueSnoc(Digits(n / 10, w - 1), n % 10);
    }
  }

  /** 10^w is written as a one followed by w zeros. */
  lemma {:induction false} Pow10Numeral(w: nat)
    ensures Decimal(Pow10(w)) == ['1'] + seq(w, _ => '0')
  {
    if w > 0 {
      Pow10Numeral(w - 1);
      var p := Pow10(w - 1);
      assert Pow10(w) / 10 == p && Pow10(w) % 10 == 0;
      assert (['1'] + seq(w - 1, _ => '0')) + ['0'] == ['1'] + seq(w, _ => '0');
    }
  }

  /** "YYYY-MM-DD", the part of `toISOString()` before the "T". */
  function DateText(t: DateTime): (r: string)
    requires t.Valid()
    ensures |r| == 10
  {
    Digits(t.year, 4) + ("-" + (Digits(t.month, 2) + ("-" + Digits(t.day, 2))))
  }

  function IsoTimeText(t: DateTime): string
    requires t.Valid()
  {
    Digits(t.hour, 2) + (":" + (Digits(t.minute, 2) + (":" + (Digits(t.second, 2)
      + ("." + (Digits(t.milli, 3) + "Z"))))))
  }

  function SqlTimeText(t: DateTime): string
    requires t.Valid()
  {
    Digits(t.hour, 2) + (":" + (Digits(t.minute, 2) + (":" + Digits(t.second, 2))))
  }

  /** `Date.prototype.toISOString`. */
  function IsoText(t: DateTime): string
    requires t.Valid()
  {
    DateText(t) + ("T" + IsoTimeText(t))
  }

  /** SQLite's `datetime(...)` text form. */
  function SqlText(t: DateTime): string
    requires t.Valid()
  {
    DateText(t) + (" " + SqlTimeText(t))
  }

  /** Order of TEXT values under SQLite's default (binary) collation. */
  predicate TextLess(a: string, b: string) {
    if |a| == 0 then |b| > 0
    else if |b| == 0 then false
    else if a[0] != b[0] then a[0] < b[0]
    else TextLess(a[1..], b[1..])
  }

  lemma {:induction false} TextLessCommonPrefix(p: string, x: string, y: string)
    ensures TextLess(p + x, p + y) <==> TextLess(x, y)
  {
    if |p| > 0 {
      assert (p + x)[1..] == p[1..] + x;
      assert (p + y)[1..] == p[1..] + y;
      TextLessCommonPrefix(p[1..], x, y);
    } else {
      assert p + x == x && p + y == y;
    }
  }

  /** Comparing blocks of equal length: the first blocks decide unless they are equal. */
  lemma {:induction false} TextLessEqualLengthBlocks(a: string, x: string, b: string, y: string)
    requires |a| == |b|
    ensures TextLess(a + x, b + y) <==> TextLess(a, b) || (a == b && TextLess(x, y))
    ensures a + x == b + y <==> a == b && x == y
  {
    if |a| == 0 {
      assert a + x == x && b + y == y;
    } else {
      assert (a + x)[1..] == a[1..] + x;
      assert (b + y)[1..] == b[1..] + y;
      TextLessEqualLengthBlocks(a[1..], x, b[1..], y);
      assert a == [a[0]] + a[1..] && b == [b[0]] + b[1..];
      if a + x == b + y {
        assert (a + x)[0] == (b + y)[0];
      }
    }
  }

  lemma {:induction false} DigitsOrder(n: nat, m: nat, w: nat)
    requires n < Pow10(w) && m < Pow10(w)
    ensures TextLess(Digits(n, w), Digits(m, w)) <==> n < m
    ensures Digits(n, w) == Digits(m, w) <==> n == m
  {
    if w > 0 {
      var hn, hm := n / 10, m / 10;
      assert hn < Pow10(w - 1) && hm < Pow10(w - 1);
      DigitsOrder(hn, hm, w - 1);
      var cn, cm := [DigitChar(n % 10)], [DigitChar(m % 10)];
      TextLessEqualLengthBlocks(Digits(hn, w - 1), cn, Digits(hm, w - 1), cm);
      assert TextLess(cn, cm) <==> n % 10 < m % 10 by {
        assert cn[1..] == [] && cm[1..] == [];
      }
      assert n < m <==> hn < hm || (hn == hm && n % 10 < m % 10);
    }
  }

  /** One zero-padded numeric field followed by the rest of the text. */
  lemma FieldStep(n: nat, m: nat, w: nat, x: string, y: string)
    requires n < Pow10(w) && m < Pow10(w)
    ensures TextLess(Digits(n, w) + x, Digits(m, w) + y) <==> n < m || (n == m && TextLess(x, y))
    ensures Digits(n, w) + x == Digits(m, w) + y <==> n == m && x == y
  {
    DigitsOrder(n, m, w);
    TextLessEqualLengthBlocks(Digits(n, w), x, Digits(m, w), y);
  }

  /** A separator character shared by both texts. */
  lemma SeparatorStep(c: string, x: string, y: string)
    ensures TextLess(c + x, c + y) <==> TextLess(x, y)
    ensures c + x == c + y <==> x == y
  {
    TextLessCommonPrefix(c, x, y);
    TextLessEqualLengthBlocks(c, x, c, y);
  }

  lemma IsoTimeOrder(a: DateTime, b: DateTime)
    requires a.Valid() && b.Valid()
    ensures TextLess(IsoTimeText(a), IsoTimeText(b)) <==>
      (if a.hour != b.hour then a.hour < b.hour
       else if a.minute != b.minute then a.minute < b.minute
       else if a.second != b.second then a.second < b.second
       else a.milli < b.milli)
  {
    SeparatorStep("Z", "", "");
    FieldStep(a.milli, b.milli, 3, "Z", "Z");
    var ma, mb := Digits(a.milli, 3) + "Z", Digits(b.milli, 3) + "Z";
    SeparatorStep(".", ma, mb);
    FieldStep(a.second, b.second, 2, "." + ma, "." + mb);
    var sa, sb := Digits(a.second, 2) + ("." + ma), Digits(b.second, 2) + ("." + mb);
    SeparatorStep(":", sa, sb);
    FieldStep(a.minute, b.minute, 2, ":" + sa, ":" + sb);
    var ia, ib := Digits(a.minute, 2) + (":" + sa), Digits(b.minute, 2) + (":" + sb);
    SeparatorStep(":", ia, ib);
    FieldStep(a.hour, b.hour, 2, ":" + ia, ":" + ib);
  }

  lemma DateTextOrder(a: DateTime, b: DateTime, x: string, y: string)
    requires a.Valid() && b.Valid()
    ensures TextLess(DateText(a) + x, DateText(b) + y) <==>
      (if a.year != b.year then a.year < b.year
       else if a.month != b.month then a.month < b.month
       else if a.day != b.day then a.day < b.day
       else TextLess(x, y))
  {
    TextLessEqualLengthBlocks(DateText(a), x, DateText(b), y);
    FieldStep(a.day, b.day, 2, "", "");
    assert Digits(a.day, 2) + "" == Digits(a.day, 2) && Digits(b.day, 2) + "" == Digits(b.day, 2);
    SeparatorStep("-", Digits(a.day, 2), Digits(b.day, 2));
    var da, db := "-" + Digits(a.day, 2), "-" + Digits(b.day, 2);
    FieldStep(a.month, b.month, 2, da, db);
    var ma, mb := Digits(a.month, 2) + da, Digits(b.month, 2) + db;
    SeparatorStep("-", ma, mb);
    FieldStep(a.year, b.year, 4, "-" + ma, "-" + mb);
  }

  /** Texts in the same ISO format sort chronologically. */
  lemma IsoTextOrder(a: DateTime, b: DateTime)
    requires a.Valid() && b.Valid()
    ensures TextLess(IsoText(a), IsoText(b)) <==> Before(a, b)
  {
    DateTextOrder(a, b, "T" + IsoTimeText(a), "T" + IsoTimeText(b));
    SeparatorStep("T", IsoTimeText(a), IsoTimeText(b));
    IsoTimeOrder(a, b);
  }
}

=== FILE: email.dfy ===
/**
 * The mail helpers (`utils/email.ts`): address validation and normalisation, the admin list
 * parsed from a comma-separated setting, the checks `sendEmail` makes before it calls the
 * Resend API, and the truncate-then-escape treatment of the notification's fields.
 */
module Email {
  import opened Wrappers
  import opened Strings

  /**
   * The library routines the helpers call, taken as given: `validator.isEmail`,
   * `validator.isURL` with protocols http and https, `validator.escape`, `DOMPurify.sanitize`.
   */
  datatype Libraries = Libraries(isEmail: string -> bool, isHttpUrl: string -> bool,
                                 escape: string -> string, purify: string -> string)

  /** `validator.isEmail` refuses the empty text. */
  predicate RejectsEmpty(libs: Libraries) {
    !libs.isEmail("")
  }

  /** The 256-octet path limit of RFC 5321 (section 4.5.3.1.3) without its angle brackets. */
  const MaxAddressLength := 254

  /** The subject limit the sender applies (998 is the line limit of RFC 5322, section 2.1.1). */
  const MaxSubjectLength := 998

  /** `ADMIN_NOTIFICATION_EMAILS`. */
  const AdminNotificationEmails := "admin@yourdomain.com"

  /** `SENDER_EMAIL_ADDRESS`. */
  const SenderEmailAddress := "noreply@yourdomain.com"

  /** An address in the form the validator hands back: trimmed, lower-case, accepted, short enough. */
  predicate Sanitized(libs: Libraries, s: string) {
    IsTrimmed(s) && ToLower(s) == s && libs.isEmail(s) && |s| <= MaxAddressLength
  }

  /** `email.trim().toLowerCase()`. */
  function Normalize(email: string): (r: string)
    ensures IsTrimmed(r) && ToLower(r) == r
  {
    var t := Trim(email);
    ToLowerKeepsTrimmed(t);
    ToLowerIdempotent(t);
    ToLower(t)
  }

  /** The normalised address is the input's middle, between two blank runs, lower-cased. */
  lemma NormalizeLowersMiddle(email: string)
    ensures exists i, j :: 0 <= i <= j <= |email| && Normalize(email) == ToLower(email[i..j])
                           && IsBlank(email[..i]) && IsBlank(email[j..])
  {
    var i, j :| 0 <= i <= j <= |email| && Trim(email) == email[i..j]
                && IsBlank(email[..i]) && IsBlank(email[j..]);
    assert Normalize(email) == ToLower(email[i..j]);
  }

  /** `validateAndSanitizeEmail`: null for an empty, malformed or over-long address. */
  function ValidateAndSanitize(libs: Libraries, email: string): (r: Option<string>)
    ensures r.Some? <==> email != "" && Sanitized(libs, Normalize(email))
    ensures r.Some? ==> r.value == Normalize(email)
  {
    if email == "" then None
    else
      var s := Normalize(email);
      if !libs.isEmail(s) then None
      else if |s| > MaxAddressLength then None
      else Some(s)
  }

  /** Normalising a normalised address changes nothing. */
  lemma NormalizeIdempotent(s: string)
    ensures Normalize(Normalize(s)) == Normalize(s)
  {
    var n := Normalize(s);
    TrimOfTrimmed(n);
  }

  /** What validation returns, it accepts again unchanged. */
  lemma ValidateIdempotent(libs: Libraries, email: string)
    requires RejectsEmpty(libs)
    requires ValidateAndSanitize(libs, email).Some?
    ensures var s := ValidateAndSanitize(libs, email).value; ValidateAndSanitize(libs, s) == Some(s)
  {
    NormalizeIdempotent(email);
  }

  /** The addresses validation leaves alone are exactly the non-empty sanitized ones. */
  lemma ValidateFixedPoints(libs: Libraries, s: string)
    ensures ValidateAndSanitize(libs, s) == Some(s) <==> s != "" && Sanitized(libs, s)
  {
    if s != "" && Sanitized(libs, s) {
      TrimOfTrimmed(s);
    }
  }

  /** `.map(validateAndSanitizeEmail).filter(e => e !== null)`. */
  function ValidOnly(libs: Libraries, xs: seq<string>): (r: seq<string>)
    ensures |r| <= |xs|
  {
    if |xs| == 0 then []
    else
      var v := ValidateAndSanitize(libs, xs[0]);
      (if v.Some? then [v.value] else []) + ValidOnly(libs, xs[1..])
  }

  /** Every address the filter keeps is sanitized. */
  lemma {:induction false} ValidOnlySanitized(libs: Libraries, xs: seq<string>)
    ensures forall i :: 0 <= i < |ValidOnly(libs, xs)| ==> Sanitized(libs, ValidOnly(libs, xs)[i])
  {
    if |xs| > 0 {
      ValidOnlySanitized(libs, xs[1..]);
      var v := ValidateAndSanitize(libs, xs[0]);
      var h := if v.Some? then [v.value] else [];
      var t := ValidOnly(libs, xs[1..]);
      assert ValidOnly(libs, xs) == h + t;
      assert forall i :: |h| <= i < |h + t| ==> (h + t)[i] == t[i - |h|];
    }
  }

  /** Filtering a list is filtering its head, then its tail. */
  lemma ValidOnlyCons(libs: Libraries, xs: seq<string>)
    requires |xs| > 0
    ensures ValidOnly(libs, xs) == ValidOnly(libs, [xs[0]]) + ValidOnly(libs, xs[1..])
  {
    assert [xs[0]][1..] == [];
  }

  /** Filtering a concatenation filters each part in turn: the input order is kept. */
  lemma {:induction false} ValidOnlyAppend(libs: Libraries, a: seq<string>, b: seq<string>)
    ensures ValidOnly(libs, a + b) == ValidOnly(libs, a) + ValidOnly(libs, b)
  {
    if |a| == 0 {
      assert a + b == b;
    } else {
      var ab := a + b;
      assert ab[0] == a[0] && ab[1..] == a[1..] + b;
      ValidOnlyCons(libs, ab);
      ValidOnlyCons(libs, a);
      ValidOnlyAppend(libs, a[1..], b);
      RegroupHead(ValidOnly(libs, [a[0]]), ValidOnly(libs, a[1..]), ValidOnly(libs, b),
                  ValidOnly(libs, ab[1..]), ValidOnly(libs, a), ValidOnly(libs, ab));
    }
  }

  /** The filtered head goes in front of the filtered rest either way the parts are grouped. */
  lemma RegroupHead(h: seq<string>, ta: seq<string>, fb: seq<string>, tab: seq<string>,
                    fa: seq<string>, fab: seq<string>)
    requires fab == h + tab && tab == ta + fb && fa == h + ta
    ensures fab == fa + fb
  {
  }

  /** One address: its validated form, or nothing. */
  lemma ValidOnlySingle(libs: Libraries, x: string)
    ensures ValidOnly(libs, [x]) == match ValidateAndSanitize(libs, x) case Some(s) => [s] case None => []
  {
    assert [x][1..] == [];
  }

  /** Some input validates to x. */
  predicate SomeSegment(libs: Libraries, xs: seq<string>, x: string) {
    exists i :: 0 <= i < |xs| && ValidateAndSanitize(libs, xs[i]) == Some(x)
  }

  /** Some input validates to x exactly when the head does or some input of the tail does. */
  lemma SomeSegmentCons(libs: Libraries, xs: seq<string>, x: string)
    requires |xs| > 0
    ensures SomeSegment(libs, xs, x) <==>
      ValidateAndSanitize(libs, xs[0]) == Some(x) || SomeSegment(libs, xs[1..], x)
  {
    if SomeSegment(libs, xs[1..], x) {
      var i :| 0 <= i < |xs[1..]| && ValidateAndSanitize(libs, xs[1..][i]) == Some(x);
      assert xs[i + 1] == xs[1..][i];
    }
    if SomeSegment(libs, xs, x) && ValidateAndSanitize(libs, xs[0]) != Some(x) {
      var i :| 0 <= i < |xs| && ValidateAndSanitize(libs, xs[i]) == Some(x);
      assert xs[1..][i - 1] == xs[i];
    }
  }

  /** Membership in a concatenation is membership in one of its parts. */
  lemma InConcat(x: string, h: seq<string>, t: seq<string>, whole: seq<string>)
    requires whole == h + t
    ensures x in whole <==> x in h || x in t
  {
  }

  /** Every kept address comes from an input, and every input that validates is kept. */
  lemma {:induction false} ValidOnlyMembers(libs: Libraries, xs: seq<string>, x: string)
    ensures x in ValidOnly(libs, xs) <==> SomeSegment(libs, xs, x)
  {
    if |xs| > 0 {
      ValidOnlyMembers(libs, xs[1..], x);
      ValidOnlyCons(libs, xs);
      ValidOnlySingle(libs, xs[0]);
      InConcat(x, ValidOnly(libs, [xs[0]]), ValidOnly(libs, xs[1..]), ValidOnly(libs, xs));
      SomeSegmentCons(libs, xs, x);
    }
  }

  /** A list that is already sanitized passes the filter unchanged. */
  lemma {:induction false} ValidOnlyOfSanitized(libs: Libraries, xs: seq<string>)
    requires RejectsEmpty(libs)
    requires forall i :: 0 <= i < |xs| ==> Sanitized(libs, xs[i])
    ensures ValidOnly(libs, xs) == xs
  {
    if |xs| > 0 {
      ValidateFixedPoints(libs, xs[0]);
      ValidOnlyOfSanitized(libs, xs[1..]);
    }
  }

  /** `parseAdminEmails`. */
  function ParseAdminEmails(libs: Libraries, s: string): (r: seq<string>)
    ensures s == "" ==> r == []
    ensures |r| <= Count(s, ',') + 1
    ensures forall i :: 0 <= i < |r| ==> Sanitized(libs, r[i])
  {
    SplitCount(s, ',');
    ValidOnlySanitized(libs, Split(s, ','));
    if s == "" then [] else ValidOnly(libs, Split(s, ','))
  }

  /** The empty-string guard changes nothing: the single empty segment never validates. */
  lemma EmptyGuardRedundant(libs: Libraries)
    ensures ValidOnly(libs, Split("", ',')) == []
  {
    assert Split("", ',') == [""];
    ValidOnlySingle(libs, "");
  }

  /**
   * The parsed list holds an address exactly when it is the validated form of one of the
   * comma-separated segments: nothing is invented and no valid segment is dropped.
   */
  lemma ParsedFromSegment(libs: Libraries, s: string, x: string)
    ensures x in ParseAdminEmails(libs, s) <==> SomeSegment(libs, Split(s, ','), x)
  {
    ValidOnlyMembers(libs, Split(s, ','), x);
    if s == "" {
      EmptyGuardRedundant(libs);
    } else {
      assert ParseAdminEmails(libs, s) == ValidOnly(libs, Split(s, ','));
    }
  }

  /** `options.to`: one address or a list. */
  datatype Recipients = One(address: string) | Many(addresses: seq<string>)

  function AddressList(to: Recipients): seq<string> {
    match to
    case One(a) => [a]
    case Many(xs) => xs
  }

  datatype EmailOptions = EmailOptions(to: Recipients, subject: string, html: string, from: Option<string>)

  /** The body posted to `https://api.resend.com/emails`, with the bearer key. */
  datatype ResendRequest = ResendRequest(apiKey: string, from: string, to: seq<string>, subject: string, html: string)

  /** What the POST came back with: an ok response, an error response's text, or a thrown error. */
  datatype Network = Delivered | ApiError(body: string) | Threw(description: string)

  /** The result object, and the request when one was made. */
  datatype SendResult = SendResult(success: bool, error: Option<string>, request: Option<ResendRequest>)

  /** `env.RESEND_API_KEY || ''`. */
  function ApiKey(env: Option<string>): string {
    if env.Some? then env.value else ""
  }

  /** `options.from || getSenderEmail()`: the given sender when truthy, else the configured one. */
  function Sender(options: EmailOptions): string {
    if options.from.Some? && options.from.value != "" then options.from.value else SenderEmailAddress
  }

  /** `sendEmail`. */
  function SendEmail(libs: Libraries, keyEnv: Option<string>, options: EmailOptions, network: Network)
    : (r: SendResult)
    ensures r.success <==> r.request.Some? && network.Delivered?
    ensures r.success <==> r.error.None?
    ensures ApiKey(keyEnv) == "" ==> r == SendResult(false, Some("Resend API key not configured"), None)
    ensures ApiKey(keyEnv) != "" && ValidOnly(libs, AddressList(options.to)) == [] ==>
      r == SendResult(false, Some("No valid recipient email addresses"), None)
    ensures r.request.Some? ==>
      var q := r.request.value;
      && q.apiKey == ApiKey(keyEnv) != ""
      && q.to == ValidOnly(libs, AddressList(options.to)) != []
      && q.subject == libs.escape(Prefix(options.subject, MaxSubjectLength))
      && q.html == libs.purify(options.html)
      && q.from != "" && Sanitized(libs, q.from)
    ensures r.request.None? && ApiKey(keyEnv) != "" && ValidOnly(libs, AddressList(options.to)) != [] ==>
      r == SendResult(false, Some("Invalid sender email address"), None)
    ensures ApiKey(keyEnv) != "" && ValidOnly(libs, AddressList(options.to)) != [] ==>
      (r.request.Some? <==>
         var c := ValidateAndSanitize(libs, Sender(options)); c.Some? && c.value != "")
    ensures r.request.Some? && network.ApiError? ==> r.error == Some("Resend API error: " + network.body)
    ensures r.request.Some? && network.Threw? ==> r.error == Some("Failed to send email: " + network.description)
  {
    var key := ApiKey(keyEnv);
    if key == "" then SendResult(false, Some("Resend API key not configured"), None)
    else
      var to := ValidOnly(libs, AddressList(options.to));
      if to == [] then SendResult(false, Some("No valid recipient email addresses"), None)
      else
        var subject := libs.escape(Prefix(options.subject, MaxSubjectLength));
        var html := libs.purify(options.html);
        var checked := ValidateAndSanitize(libs, Sender(options));
        if checked.None? || checked.value == "" then
          SendResult(false, Some("Invalid sender email address"), None)
        else
          var q := Some(ResendRequest(key, checked.value, to, subject, html));
          match network
          case Delivered => SendResult(true, None, q)
          case ApiError(body) => SendResult(false, Some("Resend API error: " + body), q)
          case Threw(d) => SendResult(false, Some("Failed to send email: " + d), q)
  }

  /** The sender is the given `from` when there is one, else the configured address. */
  lemma SenderChoice(libs: Libraries, keyEnv: Option<string>, options: EmailOptions, network: Network)
    requires SendEmail(libs, keyEnv, options, network).request.Some?
    ensures var q := SendEmail(libs, keyEnv, options, network).request.value;
      q.from == Normalize(if options.from.Some? && options.from.value != "" then options.from.value
                          else SenderEmailAddress)
  {
  }

  /** Only the subject's first 998 characters reach the escaper. */
  lemma SubjectCut(libs: Libraries, keyEnv: Option<string>, a: EmailOptions, b: EmailOptions, network: Network)
    requires a.to == b.to && a.html == b.html && a.from == b.from
    requires Prefix(a.subject, MaxSubjectLength) == Prefix(b.subject, MaxSubjectLength)
    ensures SendEmail(libs, keyEnv, a, network) == SendEmail(libs, keyEnv, b, network)
  {
  }

  /** `sendEmailToAdmins`: the admin list must be non-empty before anything is sent. */
  function SendEmailToAdmins(libs: Libraries, keyEnv: Option<string>, subject: string, html: string,
                             network: Network): (r: SendResult)
    ensures ParseAdminEmails(libs, AdminNotificationEmails) == [] ==>
      r == SendResult(false, Some("No admin emails configured"), None)
    ensures ParseAdminEmails(libs, AdminNotificationEmails) != [] ==>
      r == SendEmail(libs, keyEnv, EmailOptions(Many(ParseAdminEmails(libs, AdminNotificationEmails)), subject, html, None), network)
  {
    var admins := ParseAdminEmails(libs, AdminNotificationEmails);
    if admins == [] then SendResult(false, Some("No admin emails configured"), None)
    else SendEmail(libs, keyEnv, EmailOptions(Many(admins), subject, html, None), network)
  }

  /** The parsed admins survive `sendEmail`'s second validation: the request goes to all of them. */
  lemma AdminsAllAddressed(libs: Libraries, keyEnv: Option<string>, subject: string, html: string, network: Network)
    requires RejectsEmpty(libs)
    requires SendEmailToAdmins(libs, keyEnv, subject, html, network).request.Some?
    ensures SendEmailToAdmins(libs, keyEnv, subject, html, network).request.value.to
            == ParseAdminEmails(libs, AdminNotificationEmails)
  {
    ValidOnlyOfSanitized(libs, ParseAdminEmails(libs, AdminNotificationEmails));
  }

  /** The tribute fields the notification shows. */
  datatype TributeNote = TributeNote(name: string, message: string, email: Option<string>, phone: Option<string>,
                                     imageUrl: Option<string>, createdAt: string)

  const NameLimit := 100
  const MessageLimit := 5000
  const EmailLimit := 254
  const PhoneLimit := 20
  const ImageLimit := 500

  /** An optional field: cut and escaped when truthy, absent otherwise. */
  function CutEscape(libs: Libraries, o: Option<string>, limit: nat): (r: Option<string>)
    ensures r.Some? <==> o.Some? && o.value != ""
    ensures r.Some? ==> r.value == libs.escape(Prefix(o.value, limit))
  {
    if o.Some? && o.value != "" then Some(libs.escape(Prefix(o.value, limit))) else None
  }

  /** `sanitizedTribute` after the image check. */
  function SanitizeNote(libs: Libraries, t: TributeNote): (r: TributeNote)
    ensures r.name == libs.escape(Prefix(t.name, NameLimit))
    ensures r.message == libs.escape(Prefix(t.message, MessageLimit))
    ensures r.email == CutEscape(libs, t.email, EmailLimit) && r.phone == CutEscape(libs, t.phone, PhoneLimit)
    ensures r.imageUrl.Some? ==> r.imageUrl == CutEscape(libs, t.imageUrl, ImageLimit)
    ensures r.imageUrl.Some? ==> r.imageUrl.value == "" || libs.isHttpUrl(r.imageUrl.value)
    ensures r.createdAt == t.createdAt
  {
    var image := CutEscape(libs, t.imageUrl, ImageLimit);
    var image' := if image.Some? && image.value != "" && !libs.isHttpUrl(image.value) then None else image;
    TributeNote(libs.escape(Prefix(t.name, NameLimit)), libs.escape(Prefix(t.message, MessageLimit)),
                CutEscape(libs, t.email, EmailLimit), CutEscape(libs, t.phone, PhoneLimit), image', t.createdAt)
  }

  /** An image whose escaped form is not an http(s) URL is dropped; one that is stays. */
  lemma ImageKeptIffUrl(libs: Libraries, t: TributeNote)
    requires t.imageUrl.Some? && t.imageUrl.value != ""
    ensures var e := libs.escape(Prefix(t.imageUrl.value, ImageLimit));
      SanitizeNote(libs, t).imageUrl.Some? <==> e == "" || libs.isHttpUrl(e)
  {
  }

  /** Only the first characters up to each limit can reach the notification. */
  lemma TruncatedBeforeEscaping(libs: Libraries, a: TributeNote, b: TributeNote)
    requires Prefix(a.name, NameLimit) == Prefix(b.name, NameLimit)
    requires Prefix(a.message, MessageLimit) == Prefix(b.message, MessageLimit)
    requires a.email == b.email && a.phone == b.phone && a.imageUrl == b.imageUrl && a.createdAt == b.createdAt
    ensures SanitizeNote(libs, a) == SanitizeNote(libs, b)
  {
  }

  /** The notification's variable parts; the surrounding markup is fixed. */
  datatype Notification = Notification(
    submittedBy: string,
    date: string,
    emailLine: Option<string>,
    phoneLine: Option<string>,
    imageLink: Option<string>,
    messageHtml: string,
    dashboardLink: string)

  /** Optional text shown only when truthy. */
  function Shown(o: Option<string>): (r: Option<string>)
    ensures r.Some? <==> o.Some? && o.value != ""
    ensures r.Some? ==> r == o
  {
    if o.Some? && o.value != "" then o else None
  }

  /**
   * `generateTributeNotificationEmail`. `formatDate` stands for `toLocaleDateString`;
   * `siteUrl` for `NEXT_PUBLIC_SITE_URL`.
   */
  function NotificationEmail(libs: Libraries, t: TributeNote, formatDate: string -> string,
                             siteUrl: Option<string>): (n: Notification)
    ensures n.submittedBy == SanitizeNote(libs, t).name
    ensures n.date == formatDate(t.createdAt)
    ensures n.emailLine == Shown(SanitizeNote(libs, t).email) && n.phoneLine == Shown(SanitizeNote(libs, t).phone)
    ensures n.imageLink == Shown(SanitizeNote(libs, t).imageUrl)
    ensures n.imageLink.Some? ==> libs.isHttpUrl(n.imageLink.value)
    ensures n.messageHtml == ReplaceAll(SanitizeNote(libs, t).message, '\n', "<br>")
    ensures n.dashboardLink ==
      (if siteUrl.Some? && siteUrl.value != "" then siteUrl.value else "https://yourdomain.com") + "/admin/dashboard"
  {
    var s := SanitizeNote(libs, t);
    Notification(s.name, formatDate(s.createdAt), Shown(s.email), Shown(s.phone), Shown(s.imageUrl),
                 ReplaceAll(s.message, '\n', "<br>"),
                 (if siteUrl.Some? && siteUrl.value != "" then siteUrl.value else "https://yourdomain.com")
                 + "/admin/dashboard")
  }

  /** Line breaks of the message all become `<br>`: none survives in the markup. */
  lemma {:induction false} ReplaceAllRemoves(s: string, c: char, rep: string)
    requires c !in rep
    ensures c !in ReplaceAll(s, c, rep)
  {
    if |s| > 0 {
      ReplaceAllRemoves(s[1..], c, rep);
    }
  }

  lemma MessageHasNoNewline(libs: Libraries, t: TributeNote, formatDate: string -> string, siteUrl: Option<string>)
    ensures '\n' !in NotificationEmail(libs, t, formatDate, siteUrl).messageHtml
  {
    ReplaceAllRemoves(SanitizeNote(libs, t).message, '\n', "<br>");
  }
}

=== FILE: escape.dfy ===
/**
 * HTML escaping in the archive export (`sanitizeText`): five global replacements, the
 * ampersand first, so that the entities it introduces are not escaped again.
 */
module Escape {
  import opened Strings

  /** `sanitizeText`, as the chain of five `replace` calls. */
  function SanitizeText(s: string): string {
    ReplaceAll(ReplaceAll(ReplaceAll(ReplaceAll(ReplaceAll(s, '&', "&amp;"), '<', "&lt;"), '>', "&gt;"),
                          '"', "&quot;"), '\'', "&#39;")
  }

  /** The entity for one character, or the character itself. */
  function EscapeChar(c: char): (r: string)
    ensures |r| > 0
    ensures r[0] == '&' <==> c == '&' || c == '<' || c == '>' || c == '"' || c == '\''
  {
    match c
    case '&' => "&amp;"
    case '<' => "&lt;"
    case '>' => "&gt;"
    case '"' => "&quot;"
    case '\'' => "&#39;"
    case _ => [c]
  }

  /** Escaping in one left-to-right pass: the reference for the chain. */
  function EscapeEach(s: string): string {
    if |s| == 0 then "" else EscapeChar(s[0]) + EscapeEach(s[1..])
  }

  predicate Special(c: char) {
    c == '&' || c == '<' || c == '>' || c == '"' || c == '\''
  }

  lemma SanitizeAppend(a: string, b: string)
    ensures SanitizeText(a + b) == SanitizeText(a) + SanitizeText(b)
  {
    var a1, b1 := ReplaceAll(a, '&', "&amp;"), ReplaceAll(b, '&', "&amp;");
    ReplaceAllAppend(a, b, '&', "&amp;");
    var a2, b2 := ReplaceAll(a1, '<', "&lt;"), ReplaceAll(b1, '<', "&lt;");
    ReplaceAllAppend(a1, b1, '<', "&lt;");
    var a3, b3 := ReplaceAll(a2, '>', "&gt;"), ReplaceAll(b2, '>', "&gt;");
    ReplaceAllAppend(a2, b2, '>', "&gt;");
    var a4, b4 := ReplaceAll(a3, '"', "&quot;"), ReplaceAll(b3, '"', "&quot;");
    ReplaceAllAppend(a3, b3, '"', "&quot;");
    ReplaceAllAppend(a4, b4, '\'', "&#39;");
  }

  /** Replacing a character in a string that is that one character. */
  lemma ReplaceSingle(c: char, rep: string)
    ensures ReplaceAll([c], c, rep) == rep
  {
    assert [c][1..] == [];
  }

  /** The five replacements, one step at a time. */
  lemma SanitizeSteps(s: string, s1: string, s2: string, s3: string, s4: string, s5: string)
    requires s1 == ReplaceAll(s, '&', "&amp;") && s2 == ReplaceAll(s1, '<', "&lt;")
    requires s3 == ReplaceAll(s2, '>', "&gt;") && s4 == ReplaceAll(s3, '"', "&quot;")
    requires s5 == ReplaceAll(s4, '\'', "&#39;")
    ensures SanitizeText(s) == s5
  {
  }

  lemma SanitizeEntityChar(c: char)
    requires Special(c)
    ensures SanitizeText([c]) == EscapeChar(c)
  {
    var s := [c];
    var e := EscapeChar(c);
    if c == '&' {
      SanitizeAmp(c);
    } else if c == '<' {
      ReplaceAllAbsent(s, '&', "&amp;");
      ReplaceSingle('<', e);
      AbsentRest(e, '>', '"', '\'');
      SanitizeSteps(s, s, e, e, e, e);
    } else if c == '>' {
      ReplaceAllAbsent(s, '&', "&amp;");
      ReplaceAllAbsent(s, '<', "&lt;");
      ReplaceSingle('>', e);
      ReplaceAllAbsent(e, '"', "&quot;");
      ReplaceAllAbsent(e, '\'', "&#39;");
      SanitizeSteps(s, s, s, e, e, e);
    } else {
      SanitizeQuotes(c);
    }
  }

  lemma AbsentRest(e: string, x: char, y: char, z: char)
    requires x == '>' && y == '"' && z == '\''
    requires x !in e && y !in e && z !in e
    ensures ReplaceAll(e, x, "&gt;") == e && ReplaceAll(e, y, "&quot;") == e && ReplaceAll(e, z, "&#39;") == e
  {
    ReplaceAllAbsent(e, x, "&gt;");
    ReplaceAllAbsent(e, y, "&quot;");
    ReplaceAllAbsent(e, z, "&#39;");
  }

  lemma SanitizeAmp(c: char)
    requires c == '&'
    ensures SanitizeText([c]) == EscapeChar(c)
  {
    var e := EscapeChar(c);
    ReplaceSingle(c, e);
    ReplaceAllAbsent(e, '<', "&lt;");
    AbsentRest(e, '>', '"', '\'');
    SanitizeSteps([c], e, e, e, e, e);
  }

  lemma SanitizeQuotes(c: char)
    requires c == '"' || c == '\''
    ensures SanitizeText([c]) == EscapeChar(c)
  {
    var s := [c];
    var e := EscapeChar(c);
    ReplaceAllAbsent(s, '&', "&amp;");
    ReplaceAllAbsent(s, '<', "&lt;");
    ReplaceAllAbsent(s, '>', "&gt;");
    if c == '"' {
      ReplaceSingle('"', e);
      ReplaceAllAbsent(e, '\'', "&#39;");
      SanitizeSteps(s, s, s, s, e, e);
    } else {
      ReplaceAllAbsent(s, '"', "&quot;");
      ReplaceSingle('\'', e);
      SanitizeSteps(s, s, s, s, s, e);
    }
  }

  lemma SanitizePlainChar(c: char)
    requires !Special(c)
    ensures SanitizeText([c]) == [c]
  {
    var s := [c];
    ReplaceAllAbsent(s, '&', "&amp;");
    ReplaceAllAbsent(s, '<', "&lt;");
    ReplaceAllAbsent(s, '>', "&gt;");
    ReplaceAllAbsent(s, '"', "&quot;");
    ReplaceAllAbsent(s, '\'', "&#39;");
    SanitizeSteps(s, s, s, s, s, s);
  }

  /** The chain on a single character gives that character's entity. */
  lemma SanitizeChar(c: char)
    ensures SanitizeText([c]) == EscapeChar(c)
  {
    if Special(c) {
      SanitizeEntityChar(c);
    } else {
      SanitizePlainChar(c);
    }
  }

  /**
   * The chain equals the single pass: since `&` goes first, no entity written by a later
   * replacement is touched again.
   */
  lemma {:induction false} SanitizeIsSinglePass(s: string)
    ensures SanitizeText(s) == EscapeEach(s)
  {
    if |s| == 0 {
      ReplaceAllAbsent(s, '&', "&amp;");
      ReplaceAllAbsent(s, '<', "&lt;");
      ReplaceAllAbsent(s, '>', "&gt;");
      ReplaceAllAbsent(s, '"', "&quot;");
      ReplaceAllAbsent(s, '\'', "&#39;");
    } else {
      assert s == [s[0]] + s[1..];
      SanitizeAppend([s[0]], s[1..]);
      SanitizeChar(s[0]);
      SanitizeIsSinglePass(s[1..]);
    }
  }

  lemma {:induction false} EscapeEachAppend(a: string, b: string)
    ensures EscapeEach(a + b) == EscapeEach(a) + EscapeEach(b)
  {
    if |a| == 0 {
      assert a + b == b;
    } else {
      assert (a + b)[0] == a[0];
      assert (a + b)[1..] == a[1..] + b;
      EscapeEachAppend(a[1..], b);
    }
  }

  /** The output holds no raw `<`, `>`, `"` or `'`. */
  lemma {:induction false} NoRawMarkup(s: string)
    ensures var r := SanitizeText(s); '<' !in r && '>' !in r && '"' !in r && '\'' !in r
  {
    SanitizeIsSinglePass(s);
    NoRawMarkupEach(s);
  }

  lemma {:induction false} NoRawMarkupEach(s: string)
    ensures var r := EscapeEach(s); '<' !in r && '>' !in r && '"' !in r && '\'' !in r
  {
    if |s| > 0 {
      NoRawMarkupEach(s[1..]);
      EscapeCharClean(s[0]);
    }
  }

  /** One character's replacement holds no raw `<`, `>`, `"` or `'`. */
  lemma EscapeCharClean(c: char)
    ensures var e := EscapeChar(c); '<' !in e && '>' !in e && '"' !in e && '\'' !in e
  {
  }

  /** The output length: four more per `&`, three per `<` and `>`, five per `"`, four per `'`. */
  lemma {:induction false} SanitizeLength(s: string)
    ensures |SanitizeText(s)| == |s| + 4 * Count(s, '&') + 3 * Count(s, '<') + 3 * Count(s, '>')
                                   + 5 * Count(s, '"') + 4 * Count(s, '\'')
  {
    SanitizeIsSinglePass(s);
    EscapeEachLength(s);
  }

  lemma {:induction false} EscapeEachLength(s: string)
    ensures |EscapeEach(s)| == |s| + 4 * Count(s, '&') + 3 * Count(s, '<') + 3 * Count(s, '>')
                                + 5 * Count(s, '"') + 4 * Count(s, '\'')
  {
    if |s| > 0 {
      EscapeEachLength(s[1..]);
    }
  }

  /** Escaping leaves a string alone exactly when it holds none of `& < > " '`. */
  lemma SanitizeIdentity(s: string)
    ensures SanitizeText(s) == s <==> (forall i :: 0 <= i < |s| ==> !Special(s[i]))
  {
    SanitizeLength(s);
    CountZeroIffAbsent(s, '&');
    CountZeroIffAbsent(s, '<');
    CountZeroIffAbsent(s, '>');
    CountZeroIffAbsent(s, '"');
    CountZeroIffAbsent(s, '\'');
    if forall i :: 0 <= i < |s| ==> !Special(s[i]) {
      assert '&' !in s && '<' !in s && '>' !in s && '"' !in s && '\'' !in s;
      var s1 := ReplaceAll(s, '&', "&amp;");
      ReplaceAllAbsent(s, '&', "&amp;");
      ReplaceAllAbsent(s, '<', "&lt;");
      ReplaceAllAbsent(s, '>', "&gt;");
      ReplaceAllAbsent(s, '"', "&quot;");
      ReplaceAllAbsent(s, '\'', "&#39;");
    }
  }

  /** Decoding the five entities, left to right. */
  function Unescape(s: string): string
    decreases |s|
  {
    if |s| == 0 then ""
    else if StartsWith(s, "&amp;") then "&" + Unescape(s[5..])
    else if StartsWith(s, "&lt;") then "<" + Unescape(s[4..])
    else if StartsWith(s, "&gt;") then ">" + Unescape(s[4..])
    else if StartsWith(s, "&quot;") then "\"" + Unescape(s[6..])
    else if StartsWith(s, "&#39;") then "'" + Unescape(s[5..])
    else [s[0]] + Unescape(s[1..])
  }

  lemma NotPrefixAt(s: string, p: string, i: nat)
    requires i < |p| && i < |s| && s[i] != p[i]
    ensures !StartsWith(s, p)
  {
  }

  lemma UnescapeStep(c: char, rest: string)
    ensures Unescape(EscapeChar(c) + rest) == [c] + Unescape(rest)
  {
    var e := EscapeChar(c);
    var s := e + rest;
    assert s[..|e|] == e && s[|e|..] == rest;
    if Special(c) {
      assert s[1] == e[1];
      if c != '&' { NotPrefixAt(s, "&amp;", 1); }
      if c != '<' { NotPrefixAt(s, "&lt;", 1); }
      if c != '>' { NotPrefixAt(s, "&gt;", 1); }
      if c != '"' { NotPrefixAt(s, "&quot;", 1); }
    } else {
      assert s[0] == c && s[1..] == rest;
      NotPrefixAt(s, "&amp;", 0);
      NotPrefixAt(s, "&lt;", 0);
      NotPrefixAt(s, "&gt;", 0);
      NotPrefixAt(s, "&quot;", 0);
      NotPrefixAt(s, "&#39;", 0);
    }
  }

  /** Decoding the escaped text gives the original back. */
  lemma {:induction false} UnescapeSanitize(s: string)
    ensures Unescape(SanitizeText(s)) == s
  {
    SanitizeIsSinglePass(s);
    UnescapeEach(s);
  }

  lemma {:induction false} UnescapeEach(s: string)
    ensures Unescape(EscapeEach(s)) == s
  {
    if |s| > 0 {
      UnescapeStep(s[0], EscapeEach(s[1..]));
      UnescapeEach(s[1..]);
      assert s == [s[0]] + s[1..];
    }
  }
}

=== FILE: export.dfy ===
/**
 * The archive export (`TributeExporter`): image file names, image sources in the two export
 * modes, and the structure of the exported HTML document.
 * Dates reach the model as parameters: `dayOf` stands for
 * `new Date(created_at).toISOString().split('T')[0]`.
 */
module Export {
  import opened Wrappers
  import opened Strings
  import opened Clock
  import opened Records
  import opened Escape
  import opened Extension

  /** A character outside the Basic Multilingual Plane: two UTF-16 code units in JavaScript. */
  predicate Astral(c: char) {
    c as int > 0xFFFF
  }

  /** The length of a string as JavaScript counts it, in UTF-16 code units. */
  function Utf16Length(s: string): nat {
    if |s| == 0 then 0 else (if Astral(s[0]) then 2 else 1) + Utf16Length(s[1..])
  }

  /** The characters a safe name is made of: [A-Za-z0-9-]. */
  predicate SafeChar(c: char) {
    IsAsciiAlnum(c) || c == '-'
  }

  /** `/[^a-zA-Z0-9]/g` replaced by `-` on one character: one dash per UTF-16 code unit. */
  function SafeUnit(c: char): string {
    if IsAsciiAlnum(c) then [c] else if Astral(c) then "--" else "-"
  }

  /** `name.replace(/[^a-zA-Z0-9]/g, '-')`. */
  function SafeName(s: string): (r: string)
    ensures forall i :: 0 <= i < |r| ==> SafeChar(r[i])
  {
    if |s| == 0 then "" else SafeUnit(s[0]) + SafeName(s[1..])
  }

  lemma {:induction false} SafeNameLength(s: string)
    ensures |SafeName(s)| == Utf16Length(s)
  {
    if |s| > 0 {
      SafeNameLength(s[1..]);
    }
  }

  /** On text without astral characters, letters and digits stay in place and the rest become dashes. */
  lemma {:induction false} SafeNamePointwise(s: string)
    requires forall i :: 0 <= i < |s| ==> !Astral(s[i])
    ensures |SafeName(s)| == |s|
    ensures forall i :: 0 <= i < |s| ==> SafeName(s)[i] == if IsAsciiAlnum(s[i]) then s[i] else '-'
  {
    if |s| > 0 {
      SafeNamePointwise(s[1..]);
      var r := SafeName(s);
      assert r == SafeUnit(s[0]) + SafeName(s[1..]);
      forall i | 1 <= i < |s| ensures r[i] == if IsAsciiAlnum(s[i]) then s[i] else '-' {
        assert r[i] == SafeName(s[1..])[i - 1];
        assert s[1..][i - 1] == s[i];
      }
    }
  }

  /** A safe name is its own safe name. */
  lemma {:induction false} SafeNameIdempotent(s: string)
    ensures SafeName(SafeName(s)) == SafeName(s)
  {
    if |s| > 0 {
      SafeNameIdempotent(s[1..]);
      SafeNameAppend(SafeUnit(s[0]), SafeName(s[1..]));
      SafeNameFixed(SafeUnit(s[0]));
    }
  }

  lemma {:induction false} SafeNameAppend(a: string, b: string)
    ensures SafeName(a + b) == SafeName(a) + SafeName(b)
  {
    if |a| == 0 {
      assert a + b == b;
    } else {
      assert (a + b)[0] == a[0];
      assert (a + b)[1..] == a[1..] + b;
      SafeNameAppend(a[1..], b);
    }
  }

  lemma {:induction false} SafeNameFixed(s: string)
    requires forall i :: 0 <= i < |s| ==> SafeChar(s[i])
    ensures SafeName(s) == s
  {
    if |s| > 0 {
      SafeNameFixed(s[1..]);
      assert s == [s[0]] + s[1..];
    }
  }

  /** `getFileExtension(url) || 'jpg'`. */
  function ExtensionOrDefault(url: string): string {
    var e := GetFileExtension(url);
    if e == "" then "jpg" else e
  }

  /** The `|| 'jpg'` fallback at the call sites never applies. */
  lemma FallbackUnused(url: string)
    ensures ExtensionOrDefault(url) == GetFileExtension(url)
  {
  }

  /** `${safeName}-${date}.${extension}`, the same expression in the three places it appears. */
  function ImageFileName(t: Tribute, dayOf: Instant -> string): (r: string)
    requires HasImage(t)
    ensures StartsWith(r, SafeName(t.name) + "-" + dayOf(t.createdAt) + ".")
    ensures r == SafeName(t.name) + "-" + dayOf(t.createdAt) + "." + GetFileExtension(t.imageUrl.value)
  {
    FallbackUnused(t.imageUrl.value);
    var p := SafeName(t.name) + "-" + dayOf(t.createdAt) + ".";
    var r := p + ExtensionOrDefault(t.imageUrl.value);
    assert r[..|p|] == p;
    r
  }

  /** The image source mode: linked to the site, or a path into the archive. */
  datatype ImageMode = Linked(origin: string) | Downloaded(dayOf: Instant -> string)

  /** `getImageSrc`. */
  function ImageSrc(t: Tribute, mode: ImageMode): (src: string)
    ensures !HasImage(t) ==> src == ""
    ensures HasImage(t) && mode.Linked? ==>
      src == if StartsWith(t.imageUrl.value, "http") then t.imageUrl.value else mode.origin + t.imageUrl.value
    ensures HasImage(t) && mode.Downloaded? ==> src == "images/" + ImageFileName(t, mode.dayOf)
  {
    if !HasImage(t) then ""
    else match mode
      case Linked(origin) =>
        var url := t.imageUrl.value;
        if StartsWith(url, "http") then url else origin + url
      case Downloaded(dayOf) => "images/" + ImageFileName(t, dayOf)
  }

  /** A linked source is always absolute or rooted at the origin: it ends with the stored URL. */
  lemma LinkedSrcEndsWithUrl(t: Tribute, origin: string)
    requires HasImage(t)
    ensures EndsWith(ImageSrc(t, Linked(origin)), t.imageUrl.value)
  {
    var url := t.imageUrl.value;
    var src := ImageSrc(t, Linked(origin));
    assert src[|src| - |url|..] == url;
  }

  /** What one tribute card shows, with its text already escaped. */
  datatype Card = Card(
    name: string, badge: string, message: string,
    email: Option<string>, phone: Option<string>, adminNotes: Option<string>,
    submitted: Instant, approvedAt: Option<Instant>, imageSrc: Option<string>)

  function EscapedField(o: Option<string>): (r: Option<string>)
    ensures r.Some? <==> Truthy(o)
    ensures r.Some? ==> r.value == SanitizeText(o.value)
  {
    if Truthy(o) then Some(SanitizeText(o.value)) else None
  }

  /** `generateTributeHTML`. */
  function CardOf(t: Tribute, mode: ImageMode): (c: Card)
    ensures c.name == SanitizeText(t.name) && c.message == SanitizeText(t.message)
    ensures c.badge == if t.approved then "✓ Approved" else "⏳ Pending Review"
    ensures c.email == EscapedField(t.email) && c.phone == EscapedField(t.phone)
    ensures c.adminNotes == EscapedField(t.adminNotes)
    ensures c.submitted == t.createdAt && c.approvedAt == t.approvedAt
    ensures c.imageSrc.Some? <==> HasImage(t)
    ensures c.imageSrc.Some? ==> c.imageSrc.value == ImageSrc(t, mode)
  {
    Card(SanitizeText(t.name), if t.approved then "✓ Approved" else "⏳ Pending Review",
         SanitizeText(t.message), EscapedField(t.email), EscapedField(t.phone), EscapedField(t.adminNotes),
         t.createdAt, t.approvedAt, if HasImage(t) then Some(ImageSrc(t, mode)) else None)
  }

  /** `tributes.filter(t => t.approved)`. */
  function Approved(ts: seq<Tribute>): (r: seq<Tribute>)
    ensures |r| <= |ts|
    ensures forall t :: t in r <==> t in ts && t.approved
  {
    if |ts| == 0 then [] else (if ts[0].approved then [ts[0]] else []) + Approved(ts[1..])
  }

  /** `tributes.filter(t => !t.approved)`. */
  function Pending(ts: seq<Tribute>): (r: seq<Tribute>)
    ensures |r| <= |ts|
    ensures forall t :: t in r <==> t in ts && !t.approved
  {
    if |ts| == 0 then [] else (if !ts[0].approved then [ts[0]] else []) + Pending(ts[1..])
  }

  /** `tributes.filter(t => t.image_url)`. */
  function WithImages(ts: seq<Tribute>): (r: seq<Tribute>)
    ensures |r| <= |ts|
    ensures forall t :: t in r <==> t in ts && HasImage(t)
    ensures forall i :: 0 <= i < |r| ==> HasImage(r[i])
  {
    if |ts| == 0 then [] else (if HasImage(ts[0]) then [ts[0]] else []) + WithImages(ts[1..])
  }

  /** The two filters split the tributes: every tribute lands in exactly one of them. */
  lemma {:induction false} PartitionComplete(ts: seq<Tribute>)
    ensures multiset(Approved(ts)) + multiset(Pending(ts)) == multiset(ts)
    ensures |Approved(ts)| + |Pending(ts)| == |ts|
  {
    if |ts| > 0 {
      PartitionComplete(ts[1..]);
      assert ts == [ts[0]] + ts[1..];
    }
  }

  /** The filters keep the order: filtering a concatenation filters each part. */
  lemma {:induction false} ApprovedKeepsOrder(a: seq<Tribute>, b: seq<Tribute>)
    ensures Approved(a + b) == Approved(a) + Approved(b)
  {
    if |a| == 0 {
      assert a + b == b;
    } else {
      assert (a + b)[0] == a[0];
      assert (a + b)[1..] == a[1..] + b;
      ApprovedKeepsOrder(a[1..], b);
    }
  }

  lemma {:induction false} PendingKeepsOrder(a: seq<Tribute>, b: seq<Tribute>)
    ensures Pending(a + b) == Pending(a) + Pending(b)
  {
    if |a| == 0 {
      assert a + b == b;
    } else {
      assert (a + b)[0] == a[0];
      assert (a + b)[1..] == a[1..] + b;
      PendingKeepsOrder(a[1..], b);
    }
  }

  lemma {:induction false} WithImagesKeepsOrder(a: seq<Tribute>, b: seq<Tribute>)
    ensures WithImages(a + b) == WithImages(a) + WithImages(b)
  {
    if |a| == 0 {
      assert a + b == b;
    } else {
      assert (a + b)[0] == a[0];
      assert (a + b)[1..] == a[1..] + b;
      WithImagesKeepsOrder(a[1..], b);
    }
  }

  function Cards(ts: seq<Tribute>, mode: ImageMode): (cs: seq<Card>)
    ensures |cs| == |ts|
    ensures forall i :: 0 <= i < |ts| ==> cs[i] == CardOf(ts[i], mode)
  {
    seq(|ts|, i requires 0 <= i < |ts| => CardOf(ts[i], mode))
  }

  datatype Section = Section(title: string, cards: seq<Card>)

  /** The exported page: the counts it prints, its sections and its footer sentence. */
  datatype Document = Document(
    total: nat, approved: nat, pending: nat, exportType: string,
    approvedSection: Option<Section>, pendingSection: Option<Section>,
    emptyNotice: bool, footer: string)

  /** "tribute" or "tributes", as the footer writes the count. */
  function Tributes(n: nat): string {
    Decimal(n) + " tribute" + (if n != 1 then "s" else "")
  }

  /** `generateHTML`; `exportDate` stands for the formatted current date. */
  function GenerateHtml(ts: seq<Tribute>, mode: ImageMode, exportDate: string): (d: Document)
    ensures d.total == |ts| && d.approved == |Approved(ts)| && d.pending == |Pending(ts)|
    ensures d.exportType == if mode.Linked? then "Linked Images" else "Downloaded Images"
    ensures d.approvedSection.Some? <==> |Approved(ts)| > 0
    ensures d.pendingSection.Some? <==> |Pending(ts)| > 0
    ensures d.approvedSection.Some? ==>
      d.approvedSection.value == Section("Approved Tributes (" + Decimal(d.approved) + ")", Cards(Approved(ts), mode))
    ensures d.pendingSection.Some? ==>
      d.pendingSection.value == Section("Pending Review (" + Decimal(d.pending) + ")", Cards(Pending(ts), mode))
    ensures d.emptyNotice <==> |ts| == 0
    ensures d.footer == "This document contains " + Tributes(|ts|) + " exported on " + exportDate
  {
    var a, p := Approved(ts), Pending(ts);
    Document(|ts|, |a|, |p|, if mode.Linked? then "Linked Images" else "Downloaded Images",
             if |a| > 0 then Some(Section("Approved Tributes (" + Decimal(|a|) + ")", Cards(a, mode))) else None,
             if |p| > 0 then Some(Section("Pending Review (" + Decimal(|p|) + ")", Cards(p, mode))) else None,
             |ts| == 0, "This document contains " + Tributes(|ts|) + " exported on " + exportDate)
  }

  /** All cards of a document, approved section first. */
  function AllCards(d: Document): seq<Card> {
    (if d.approvedSection.Some? then d.approvedSection.value.cards else [])
    + (if d.pendingSection.Some? then d.pendingSection.value.cards else [])
  }

  /**
   * The document renders every tribute once: its cards are the approved tributes' cards,
   * then the pending ones', as many as there are tributes, and the counts add up.
   */
  lemma DocumentCoversAll(ts: seq<Tribute>, mode: ImageMode, exportDate: string)
    ensures var d := GenerateHtml(ts, mode, exportDate);
      && AllCards(d) == Cards(Approved(ts), mode) + Cards(Pending(ts), mode)
      && |AllCards(d)| == d.total
      && d.approved + d.pending == d.total
      && (d.total == 0 <==> d.emptyNotice && d.approvedSection.None? && d.pendingSection.None?)
  {
    PartitionComplete(ts);
    var d := GenerateHtml(ts, mode, exportDate);
    if |Approved(ts)| == 0 {
      assert Cards(Approved(ts), mode) == [];
    }
    if |Pending(ts)| == 0 {
      assert Cards(Pending(ts), mode) == [];
    }
  }

  /** A card is in the approved section exactly when its tribute is approved. */
  lemma SectionOfTribute(ts: seq<Tribute>, mode: ImageMode, exportDate: string, t: Tribute)
    requires t in ts
    ensures var d := GenerateHtml(ts, mode, exportDate);
      && (t.approved ==> d.approvedSection.Some? && CardOf(t, mode) in d.approvedSection.value.cards)
      && (!t.approved ==> d.pendingSection.Some? && CardOf(t, mode) in d.pendingSection.value.cards)
  {
    var d := GenerateHtml(ts, mode, exportDate);
    if t.approved {
      var a := Approved(ts);
      var i :| 0 <= i < |a| && a[i] == t;
      assert Cards(a, mode)[i] == CardOf(t, mode);
    } else {
      var p := Pending(ts);
      var i :| 0 <= i < |p| && p[i] == t;
      assert Cards(p, mode)[i] == CardOf(t, mode);
    }
  }

  /** The footer says "1 tribute" but "0 tributes" and "2 tributes". */
  lemma FooterPlural(n: nat)
    ensures Tributes(n) == Decimal(n) + (if n == 1 then " tribute" else " tributes")
  {
  }

  /** An apostrophe in a name becomes a dash. */
  lemma ExampleSafeName()
    ensures SafeName("O'Brien") == "O-Brien"
  {
    var s := "O'Brien";
    SafeNamePointwise(s);
    var r := SafeName(s);
    assert r[1] == '-';
    assert r == "O-Brien";
  }

  /** The file name of an image stored as `<head>.<ext>`, for a head without dots: the extension lower-cased. */
  lemma FileNameParts(t: Tribute, dayOf: Instant -> string, head: string, ext: string)
    requires '.' !in head && |ext| > 0
    requires forall k :: 0 <= k < |ext| ==> IsAsciiAlnum(ext[k])
    requires t.imageUrl == Some(head + "." + ext)
    ensures ImageFileName(t, dayOf) == SafeName(t.name) + "-" + dayOf(t.createdAt) + "." + ToLower(ext)
  {
    ExtensionAfterDot(head, ext);
  }

  /** The file name of an image stored as `<path>.PNG`, for a path without dots. */
  lemma ExampleFileName(t: Tribute, dayOf: Instant -> string, head: string)
    requires '.' !in head
    requires t.name == "O'Brien" && t.imageUrl == Some(head + ".PNG")
    requires dayOf(t.createdAt) == "2025-03-01"
    ensures ImageFileName(t, dayOf) == "O-Brien-2025-03-01.png"
  {
    assert ImageFileName(t, dayOf) == SafeName(t.name) + "-" + dayOf(t.createdAt) + "." + "png" by {
      assert head + ".PNG" == head + "." + "PNG";
      FileNameParts(t, dayOf, head, "PNG");
      assert ToLower("PNG") == "png";
    }
    assert SafeName(t.name) == "O-Brien" by {
      ExampleSafeName();
    }
    ExampleNameText();
  }

  /** The pieces of the example file name, joined. */
  lemma ExampleNameText()
    ensures "O-Brien" + "-" + "2025-03-01" + "." + "png" == "O-Brien-2025-03-01.png"
  {
  }
}

=== FILE: extension.dfy ===
/**
 * `getFileExtension` of the archive export: the extension of an image URL, found with the
 * regular expression `\.([a-zA-Z0-9]+)(?:\?|$)`, with a fallback for `/api/images/` paths
 * and the default "jpg".
 */
module Extension {
  import opened Wrappers
  import opened Strings

  /** The end of the run of [a-zA-Z0-9] characters that starts at i. */
  function RunEnd(s: string, i: nat): (e: nat)
    requires i <= |s|
    ensures i <= e <= |s|
    ensures forall k :: i <= k < e ==> IsAsciiAlnum(s[k])
    ensures e < |s| ==> !IsAsciiAlnum(s[e])
    decreases |s| - i
  {
    if i == |s| || !IsAsciiAlnum(s[i]) then i else RunEnd(s, i + 1)
  }

  /**
   * The regular expression's own reading: a dot at i, then a group of k characters of
   * [a-zA-Z0-9], then a `?` or the end of the text.
   */
  ghost predicate RegexMatch(s: string, i: int, k: int) {
    0 <= i && 1 <= k && i + 1 + k <= |s| && s[i] == '.'
    && (forall j :: i + 1 <= j < i + 1 + k ==> IsAsciiAlnum(s[j]))
    && (i + 1 + k == |s| || s[i + 1 + k] == '?')
  }

  /** The pattern matches at i: the whole run after the dot, ending at `?` or the end. */
  predicate MatchesAt(s: string, i: int) {
    0 <= i < |s| && s[i] == '.' && RunEnd(s, i + 1) > i + 1
    && (RunEnd(s, i + 1) == |s| || s[RunEnd(s, i + 1)] == '?')
  }

  /** Backtracking cannot shorten the group: a match at i captures exactly the whole run. */
  lemma RegexMatchIsRun(s: string, i: int, k: int)
    ensures RegexMatch(s, i, k) <==> MatchesAt(s, i) && k == RunEnd(s, i + 1) - (i + 1)
  {
    if RegexMatch(s, i, k) {
      var e := RunEnd(s, i + 1);
      if e < i + 1 + k {
        assert false;
      }
      if e > i + 1 + k {
        assert false;
      }
    }
  }

  /** The leftmost match at or after `from`. */
  function FirstMatch(s: string, from: nat): (r: Option<nat>)
    requires from <= |s|
    ensures r.Some? ==> from <= r.value < |s| && MatchesAt(s, r.value)
    ensures r.Some? ==> forall j :: from <= j < r.value ==> !MatchesAt(s, j)
    ensures r.None? ==> forall j :: from <= j < |s| ==> !MatchesAt(s, j)
    decreases |s| - from
  {
    if from == |s| then None
    else if MatchesAt(s, from) then Some(from)
    else FirstMatch(s, from + 1)
  }

  /** `/\.([a-zA-Z0-9]+)$/` matches at j: a dot followed by nothing but [a-zA-Z0-9], at least one. */
  predicate EndMatchAt(f: string, j: int) {
    0 <= j && j + 1 < |f| && f[j] == '.' && RunEnd(f, j + 1) == |f|
  }

  function FirstEndMatch(f: string, from: nat): (r: Option<nat>)
    requires from <= |f|
    ensures r.Some? ==> from <= r.value && EndMatchAt(f, r.value)
    ensures r.None? ==> forall j :: from <= j < |f| ==> !EndMatchAt(f, j)
    decreases |f| - from
  {
    if from == |f| then None
    else if EndMatchAt(f, from) then Some(from)
    else FirstEndMatch(f, from + 1)
  }

  /** `getFileExtension`, with both of its branches. */
  function GetFileExtension(url: string): (r: string)
    ensures |r| > 0
    ensures forall k :: 0 <= k < |r| ==> IsLowerAlnum(r[k])
  {
    match FirstMatch(url, 0)
    case Some(i) => ToLower(url[i + 1..RunEnd(url, i + 1)])
    case None =>
      if Contains(url, "/api/images/") then
        var f := Last(Split(url, '/'));
        match FirstEndMatch(f, 0)
        case Some(j) => ToLower(f[j + 1..])
        case None => "jpg"
      else "jpg"
  }

  /** A run of [a-zA-Z0-9] reaching the end of the text. */
  lemma {:induction false} RunToEnd(s: string, i: nat)
    requires i <= |s|
    requires forall k :: i <= k < |s| ==> IsAsciiAlnum(s[k])
    ensures RunEnd(s, i) == |s|
    decreases |s| - i
  {
    if i < |s| {
      RunToEnd(s, i + 1);
    }
  }

  /** An end-anchored match in a suffix of the text is a match of the first pattern. */
  lemma EndMatchInSuffix(url: string, f: string, j: nat)
    requires |f| <= |url| && url[|url| - |f|..] == f
    requires EndMatchAt(f, j)
    ensures MatchesAt(url, |url| - |f| + j)
  {
    var off := |url| - |f|;
    assert forall k :: off + j + 1 <= k < |url| ==> url[k] == f[k - off];
    forall k | off + j + 1 <= k < |url| ensures IsAsciiAlnum(url[k]) {
      assert url[k] == f[k - off];
    }
    RunToEnd(url, off + j + 1);
  }

  /** The `/api/images/` branch never changes the result: whenever it is reached, it finds nothing. */
  lemma SecondBranchDead(url: string)
    requires FirstMatch(url, 0).None?
    ensures FirstEndMatch(Last(Split(url, '/')), 0).None?
  {
    var f := Last(Split(url, '/'));
    SplitLastIsSuffix(url, '/');
    forall j | 0 <= j < |f| ensures !EndMatchAt(f, j) {
      if EndMatchAt(f, j) {
        EndMatchInSuffix(url, f, j);
      }
    }
  }

  /** The extension is the lower-cased group of the leftmost match, or "jpg" when there is none. */
  lemma ExtensionIsFirstMatch(url: string)
    ensures FirstMatch(url, 0).None? ==> GetFileExtension(url) == "jpg"
    ensures FirstMatch(url, 0).Some? ==>
      var i := FirstMatch(url, 0).value;
      GetFileExtension(url) == ToLower(url[i + 1..RunEnd(url, i + 1)])
  {
    if FirstMatch(url, 0).None? && Contains(url, "/api/images/") {
      SecondBranchDead(url);
    }
  }

  /** A text with a single dot, followed by an alphanumeric tail: the tail, lower-cased. */
  lemma ExtensionAfterDot(head: string, sub: string)
    requires '.' !in head && |sub| > 0
    requires forall k :: 0 <= k < |sub| ==> IsAsciiAlnum(sub[k])
    ensures GetFileExtension(head + "." + sub) == ToLower(sub)
  {
    var url := head + "." + sub;
    var i := |head|;
    assert url[i] == '.';
    assert forall k :: i + 1 <= k < |url| ==> url[k] == sub[k - i - 1];
    RunToEnd(url, i + 1);
    assert MatchesAt(url, i);
    forall j | 0 <= j < i ensures !MatchesAt(url, j) {
      assert url[j] == head[j];
    }
    var m := FirstMatch(url, 0);
    assert m == Some(i);
    ExtensionIsFirstMatch(url);
    assert url[i + 1..] == sub;
  }

  /** With a tail that is already lower-case, the extension is the tail itself. */
  lemma ExtensionAfterOnlyDot(head: string, sub: string)
    requires '.' !in head && |sub| > 0
    requires forall k :: 0 <= k < |sub| ==> IsLowerAlnum(sub[k])
    ensures GetFileExtension(head + "." + sub) == sub
  {
    assert forall k :: 0 <= k < |sub| ==> IsAsciiAlnum(sub[k]);
    ExtensionAfterDot(head, sub);
    forall k | 0 <= k < |sub| ensures LowerChar(sub[k]) == sub[k] { }
    assert ToLower(sub) == sub;
  }

  /** `a.PNG?v=1` has extension "png". */
  lemma ExampleQueryString()
    ensures GetFileExtension("a.PNG?v=1") == "png"
  {
    var s := "a.PNG?v=1";
    assert !MatchesAt(s, 0);
    assert RunEnd(s, 2) == 5 by {
      assert RunEnd(s, 5) == 5;
    }
    assert MatchesAt(s, 1);
    assert FirstMatch(s, 0) == Some(1);
    ExtensionIsFirstMatch(s);
    assert s[2..5] == "PNG";
  }

  /** A URL whose only dot is followed by `/` gets the default. */
  lemma ExampleNoExtension()
    ensures GetFileExtension("https://x.io/photo") == "jpg"
  {
    var s := "https://x.io/photo";
    assert RunEnd(s, 10) == 12 by {
      assert RunEnd(s, 12) == 12;
    }
    forall j | 0 <= j < |s| ensures !MatchesAt(s, j) {
      if j != 9 { assert s[j] != '.'; }
    }
    ExtensionIsFirstMatch(s);
  }
}

=== FILE: form.dfy ===
/**
 * The public tribute form (`TributeForm`): the file picker's size check, the checks made
 * before sending, the form data it sends, and the reset after a successful response.
 */
module Form {
  import opened Wrappers
  import opened Http
  import opened Strings
  import opened Records
  import opened Intake

  /** The controlled fields of the form. */
  datatype Fields = Fields(name: string, message: string, email: string, phone: string, anonymous: bool)

  datatype Status = Idle | Success | Error

  /** The component's state: fields, chosen file, and the submission status. */
  datatype ClientState = ClientState(fields: Fields, selected: Option<ImageFile>, submitting: bool, status: Status)

  const EmptyFields: Fields := Fields("", "", "", "", false)

  const Initial: ClientState := ClientState(EmptyFields, None, false, Idle)

  /** A chosen file never exceeds the size limit. */
  predicate Good(st: ClientState) {
    st.selected.Some? ==> st.selected.value.size <= MaxImageBytes
  }

  datatype Step = Step(state: ClientState, alert: Option<string>)

  /** `handleFileChange`: a file over 10 MiB raises an alert and is not kept. */
  function HandleFileChange(st: ClientState, file: Option<ImageFile>): (out: Step)
    ensures file.None? ==> out == Step(st, None)
    ensures file.Some? && file.value.size > MaxImageBytes ==>
      out == Step(st, Some("File size must be less than 10MB"))
    ensures file.Some? && file.value.size <= MaxImageBytes ==> out == Step(st.(selected := file), None)
    ensures Good(st) ==> Good(out.state)
  {
    if file.None? then Step(st, None)
    else if file.value.size > MaxImageBytes then Step(st, Some("File size must be less than 10MB"))
    else Step(st.(selected := file), None)
  }

  /** The form data sent to `POST /api/tributes`. */
  function Payload(st: ClientState): (f: TributeForm)
    ensures f.name == Some(if st.fields.anonymous then "Anonymous" else st.fields.name)
    ensures f.message == Some(st.fields.message)
    ensures f.email == Some(st.fields.email) && f.phone == Some(st.fields.phone)
    ensures f.anonymous == Some(if st.fields.anonymous then "true" else "false")
    ensures f.image == st.selected
  {
    var v := st.fields;
    TributeForm(Some(if v.anonymous then "Anonymous" else v.name), Some(v.message),
                Some(v.email), Some(v.phone), Some(if v.anonymous then "true" else "false"), st.selected)
  }

  /** The checks `handleSubmit` makes before sending: None when the form may be sent. */
  function Blocked(v: Fields): (alert: Option<string>)
    ensures alert.None? <==> Trim(v.message) != "" && (v.anonymous || Trim(v.name) != "")
    ensures Trim(v.message) == "" ==> alert == Some("Please share your message or memory.")
    ensures Trim(v.message) != "" && !v.anonymous && Trim(v.name) == "" ==>
      alert == Some("Please enter your name or check \"Submit anonymously\".")
  {
    if Trim(v.message) == "" then Some("Please share your message or memory.")
    else if !v.anonymous && Trim(v.name) == "" then Some("Please enter your name or check \"Submit anonymously\".")
    else None
  }

  datatype SubmitStep = SubmitStep(state: ClientState, alert: Option<string>, sent: Option<TributeForm>)

  /**
   * `handleSubmit`. `responseOk` is whether the POST came back with an ok status; a failed
   * fetch counts as not ok.
   */
  function HandleSubmit(st: ClientState, responseOk: bool): (out: SubmitStep)
    ensures out.sent.None? <==> out.alert.Some?
    ensures out.alert.Some? ==> out.state == st && out.alert == Blocked(st.fields)
    ensures out.sent.Some? ==> out.sent == Some(Payload(st)) && !out.state.submitting
    ensures out.sent.Some? && responseOk ==> out.state == ClientState(EmptyFields, None, false, Success)
    ensures out.sent.Some? && !responseOk ==>
      out.state == st.(submitting := false, status := Error)
    ensures Good(st) ==> Good(out.state)
  {
    var alert := Blocked(st.fields);
    if alert.Some? then SubmitStep(st, alert, None)
    else
      var after := if responseOk then ClientState(EmptyFields, None, false, Success)
                   else st.(submitting := false, status := Error);
      SubmitStep(after, None, Some(Payload(st)))
  }

  /** The form sends exactly what the route's message and name checks accept. */
  lemma ClientMatchesServer(st: ClientState)
    ensures Blocked(st.fields).None? <==>
      var f := Payload(st); Present(f.message) && (Anonymous(f) || Present(f.name))
  {
  }

  /**
   * A form the client lets through, with a file chosen through the picker, passes the route's
   * message, name and size checks: it is accepted, refused for its file type, or meets a
   * server-side failure.
   */
  lemma SentFormPassesChecks(st: ClientState, now: nat, rand: string, putOk: bool, newId: int, insertOk: bool,
                             db: Option<Db>, bucket: Option<Bucket>)
    requires Good(st) && Blocked(st.fields).None?
    requires db.Some? ==> newId !in db.value.tributes
    ensures var r := Submit(Some(Payload(st)), now, rand, putOk, newId, insertOk, db, bucket).response;
      r.Ok? || r == Fail(BadRequest, "Invalid file type. Only JPG, PNG, GIF, and WebP are allowed.")
      || r.status == ServerError
  {
    var f := Payload(st);
    ClientMatchesServer(st);
    assert Present(f.message) && (Anonymous(f) || Present(f.name));
    assert !(HasUpload(f) && f.image.value.size > MaxImageBytes);
  }

  /** The form starts empty, not anonymous, with no file. */
  lemma InitialIsEmpty()
    ensures Good(Initial) && Initial.fields.anonymous == false && Initial.selected.None?
    ensures Blocked(Initial.fields) == Some("Please share your message or memory.")
  {
    assert Trim("") == "" by { TrimEmptyIffBlank(""); }
  }
}

=== FILE: gallery.dfy ===
/**
 * The photo carousel (`PhotoGallery`): the current index, the next and previous arrows,
 * the five-second auto-advance, and the thumbnail and dot buttons that jump to a photo.
 */
module Gallery {

  /** The photos the carousel shows, in order. */
  const Photos: seq<string> := [
    "/photos/Peter-Rhodes-1.jpeg",
    "/photos/Peter-Rhodes-2.jpeg",
    "/photos/Peter-Rhodes-3.jpeg",
    "/photos/Peter-Rhodes-4.jpeg",
    "/photos/Peter-Rhodes-5.jpeg",
    "/photos/Peter-Rhodes-6.jpeg",
    "/photos/Peter-Rhodes-7.jpeg"
  ]

  /** JavaScript's `%`: the remainder takes the sign of the dividend. */
  function JsRem(a: int, n: int): (r: int)
    requires n > 0
    ensures a >= 0 ==> 0 <= r < n
    ensures a < 0 ==> -n < r <= 0
    ensures 0 <= a < n ==> r == a
    ensures n <= a < 2 * n ==> r == a - n
  {
    ModSmall(a, n);
    if a >= 0 then a % n else -((-a) % n)
  }

  /** The remainder of a dividend below 2n, by the quotient it must have. */
  lemma ModSmall(a: int, n: int)
    requires n > 0
    ensures 0 <= a < n ==> a % n == a
    ensures n <= a < 2 * n ==> a % n == a - n
  {
    var q, r := a / n, a % n;
    assert a == q * n + r && 0 <= r < n;
    MulBounds(q, n);
  }

  /** A multiple of n by a quotient below 0 or above 1 lies beyond -n or 2n. */
  lemma {:induction false} MulBounds(q: int, n: int)
    requires n > 0
    ensures q < 0 ==> q * n <= -n
    ensures q >= 2 ==> q * n >= 2 * n
    decreases if q < 0 then -q else q
  {
    if q < -1 {
      MulBounds(q + 1, n);
      assert q * n == (q + 1) * n - n;
    } else if q > 2 {
      MulBounds(q - 1, n);
      assert q * n == (q - 1) * n + n;
    }
  }

  /** `nextImage`'s update. */
  function Next(i: int, n: int): int
    requires n > 0
  {
    JsRem(i + 1, n)
  }

  /** `prevImage`'s update; the `+ n` keeps the dividend non-negative. */
  function Prev(i: int, n: int): int
    requires n > 0
  {
    JsRem(i - 1 + n, n)
  }

  /** The next arrow (and each tick of the auto-advance) stays among the photos. */
  lemma NextInRange(i: int, n: int)
    requires 0 <= i < n
    ensures 0 <= Next(i, n) < n
    ensures Next(i, n) == if i == n - 1 then 0 else i + 1
  {
  }

  /** The previous arrow stays among the photos and wraps from the first to the last. */
  lemma PrevInRange(i: int, n: int)
    requires 0 <= i < n
    ensures 0 <= Prev(i, n) < n
    ensures Prev(i, n) == if i == 0 then n - 1 else i - 1
  {
    if i == 0 {
      assert (n - 1) % n == n - 1;
    } else {
      assert i - 1 + n == (i - 1) + 1 * n;
    }
  }

  /** Without the `+ n`, going back from the first photo would give -1. */
  lemma WithoutOffsetGoesNegative(n: int)
    requires n > 1
    ensures JsRem(0 - 1, n) == -1
  {
  }

  /** Back after forward, and forward after back, both return to the same photo. */
  lemma NextPrevInverse(i: int, n: int)
    requires 0 <= i < n
    ensures Prev(Next(i, n), n) == i
    ensures Next(Prev(i, n), n) == i
  {
    NextInRange(i, n);
    PrevInRange(i, n);
    NextInRange(Prev(i, n), n);
    PrevInRange(Next(i, n), n);
  }

  /** k presses of the next arrow. */
  function NextTimes(i: int, n: int, k: nat): int
    requires n > 0
  {
    if k == 0 then i else Next(NextTimes(i, n, k - 1), n)
  }

  /** Pressing a times and then b times is pressing a + b times. */
  lemma {:induction false} NextTimesAdd(i: int, n: int, a: nat, b: nat)
    requires n > 0
    ensures NextTimes(i, n, a + b) == NextTimes(NextTimes(i, n, a), n, b)
  {
    if b > 0 {
      NextTimesAdd(i, n, a, b - 1);
    }
  }

  /** Before the last photo is passed, k presses move k photos forward. */
  lemma {:induction false} NextTimesForward(i: int, n: int, k: nat)
    requires 0 <= i && i + k < n
    ensures NextTimes(i, n, k) == i + k
  {
    if k > 0 {
      NextTimesForward(i, n, k - 1);
      NextInRange(i + k - 1, n);
    }
  }

  /** n presses of next come back to the starting photo. */
  lemma FullCycle(i: int, n: int)
    requires 0 <= i < n
    ensures NextTimes(i, n, n) == i
  {
    var toLast := n - 1 - i;
    NextTimesForward(i, n, toLast);
    NextTimesAdd(i, n, toLast, 1);
    NextInRange(n - 1, n);
    assert NextTimes(i, n, n - i) == 0;
    NextTimesAdd(i, n, n - i, i);
    NextTimesForward(0, n, i);
  }

  /** What the page can do to the carousel. */
  datatype Event =
    | NextClick        // the right arrow
    | PrevClick        // the left arrow
    | Tick             // the five-second interval
    | Thumb(k: int)    // a thumbnail or a progress dot, passing its own position

  /** The indices the thumbnails and dots pass: one per photo, in order. */
  function ButtonIndices(n: nat): (r: seq<int>)
    ensures |r| == n
    ensures forall i :: 0 <= i < n ==> r[i] == i
  {
    seq(n, i => i)
  }

  /** An event the rendered page can raise: a button passes an index it was rendered with. */
  predicate Raisable(e: Event, n: nat) {
    e.Thumb? ==> e.k in ButtonIndices(n)
  }

  /** The state update of one event; `goToImage` stores its index unchecked. */
  function Apply(i: int, n: int, e: Event): int
    requires n > 0
  {
    match e
    case NextClick => Next(i, n)
    case Tick => Next(i, n)
    case PrevClick => Prev(i, n)
    case Thumb(k) => k
  }

  /** `useState(0)`. */
  const InitialIndex: int := 0

  function Run(n: int, es: seq<Event>): int
    requires n > 0
  {
    if |es| == 0 then InitialIndex else Apply(Run(n, es[..|es| - 1]), n, es[|es| - 1])
  }

  /** Every event the page can raise keeps the index among the photos. */
  lemma ApplyKeepsRange(i: int, n: int, e: Event)
    requires 0 <= i < n && Raisable(e, n)
    ensures 0 <= Apply(i, n, e) < n
  {
    match e
    case NextClick => NextInRange(i, n);
    case Tick => NextInRange(i, n);
    case PrevClick => PrevInRange(i, n);
    case Thumb(k) =>
  }

  /** From the initial index, any sequence of raisable events leaves `photos[index]` defined. */
  lemma {:induction false} RunInRange(n: int, es: seq<Event>)
    requires n > 0
    requires forall j :: 0 <= j < |es| ==> Raisable(es[j], n)
    ensures 0 <= Run(n, es) < n
  {
    if |es| > 0 {
      var init := es[..|es| - 1];
      assert forall j :: 0 <= j < |init| ==> init[j] == es[j];
      RunInRange(n, init);
      ApplyKeepsRange(Run(n, init), n, es[|es| - 1]);
    }
  }

  /** The image shown and the counter `index + 1 / n`. */
  datatype View = View(src: string, position: int, total: int)

  function Show(photos: seq<string>, i: int): (v: View)
    requires 0 <= i < |photos|
    ensures v.src in photos && 1 <= v.position <= v.total == |photos|
    ensures v.src == photos[i] && v.position == i + 1 && v.total == |photos|
  {
    View(photos[i], i + 1, |photos|)
  }

  /**
   * The carousel as rendered after the events: the first photo as 1 of 7 before any event, the
   * clicked photo after a thumbnail or dot, and the last photo after one press of the left arrow.
   */
  lemma ShownAfterEvents(es: seq<Event>)
    requires forall j :: 0 <= j < |es| ==> Raisable(es[j], |Photos|)
    ensures 0 <= Run(|Photos|, es) < |Photos|
    ensures |es| == 0 ==> Show(Photos, Run(|Photos|, es)) == View(Photos[0], 1, |Photos|)
    ensures |es| > 0 && es[|es| - 1].Thumb? ==>
      0 <= es[|es| - 1].k < |Photos| &&
      Show(Photos, Run(|Photos|, es)) == View(Photos[es[|es| - 1].k], es[|es| - 1].k + 1, |Photos|)
    ensures es == [PrevClick] ==> Show(Photos, Run(|Photos|, es)) == View(Photos[6], 7, 7)
  {
    RunInRange(|Photos|, es);
    if |es| > 0 && es[|es| - 1].Thumb? {
      assert Raisable(es[|es| - 1], |Photos|);
    }
  }

  /** k five-second ticks. */
  function Ticks(k: nat): (es: seq<Event>)
    ensures |es| == k && forall j :: 0 <= j < k ==> es[j] == Tick
  {
    seq(k, _ => Tick)
  }

  /** A run of ticks presses the next arrow as often, from the first photo. */
  lemma {:induction false} RunTicks(n: int, k: nat)
    requires n > 0
    ensures Run(n, Ticks(k)) == NextTimes(InitialIndex, n, k)
  {
    if k > 0 {
      assert Ticks(k)[..k - 1] == Ticks(k - 1);
      RunTicks(n, k - 1);
    }
  }

  /** Left alone, the carousel shows photo k + 1 after k ticks, and the first again after all seven. */
  lemma AutoAdvance(k: nat)
    requires k <= |Photos|
    ensures Run(|Photos|, Ticks(k)) == k % |Photos|
    ensures k < |Photos| ==> Show(Photos, Run(|Photos|, Ticks(k))) == View(Photos[k], k + 1, |Photos|)
    ensures k == |Photos| ==> Show(Photos, Run(|Photos|, Ticks(k))) == View(Photos[0], 1, |Photos|)
  {
    RunTicks(|Photos|, k);
    if k < |Photos| {
      NextTimesForward(0, |Photos|, k);
    } else {
      FullCycle(0, |Photos|);
    }
  }
}

=== FILE: intake.dfy ===
/**
 * Public submission of a tribute, `POST /api/tributes`: the ordered validation of the form,
 * the optional upload of the image to the `IMAGES` bucket, and the insertion of a pending row.
 */
module Intake {
  import opened Wrappers
  import opened Http
  import opened Strings
  import opened Clock
  import opened Records

  /** The largest image accepted: 10 MiB. */
  const MaxImageBytes: int := 10 * 1024 * 1024

  /** The route's response texts. */
  const BadForm: string := "Internal server error"
  const MessageRequired: string := "Message is required"
  const NameRequired: string := "Name is required when not submitting anonymously"
  const TooLarge: string := "Image file size must be less than 10MB"
  const BadType: string := "Invalid file type. Only JPG, PNG, GIF, and WebP are allowed."
  const UploadFailed: string := "Failed to upload image"
  const SaveFailed: string := "Failed to save tribute"
  const AwaitingApproval: string := "Tribute submitted successfully and pending approval"

  /** The image types the route accepts. */
  const AllowedTypes: seq<string> := ["image/jpeg", "image/png", "image/gif", "image/webp"]

  /** An uploaded file: its size in bytes and its declared MIME type. */
  datatype ImageFile = ImageFile(size: nat, mime: string)

  /** The fields of the multipart form; a missing field is None. */
  datatype TributeForm = TributeForm(
    name: Option<string>, message: Option<string>, email: Option<string>, phone: Option<string>,
    anonymous: Option<string>, image: Option<ImageFile>)

  /** The `IMAGES` bucket: object key to stored content type. */
  type Bucket = map<string, string>

  /** `field?.trim()` is truthy: the field is present and not all whitespace. */
  predicate Present(o: Option<string>) {
    o.Some? && Trim(o.value) != ""
  }

  /** Present is the same as present and not blank. */
  lemma PresentIffNotBlank(o: Option<string>)
    ensures Present(o) <==> o.Some? && !IsBlank(o.value)
  {
    if o.Some? {
      TrimEmptyIffBlank(o.value);
    }
  }

  /** `formData.get('anonymous') === 'true'`. */
  predicate Anonymous(f: TributeForm) {
    f.anonymous == Some("true")
  }

  /** `imageFile && imageFile.size > 0`: an empty file counts as no image. */
  predicate HasUpload(f: TributeForm) {
    f.image.Some? && f.image.value.size > 0
  }

  /** A split of "top/sub" into its two parts. */
  lemma SplitMimeType(top: string, sub: string)
    requires '/' !in top && '/' !in sub
    ensures Split(top + "/" + sub, '/') == [top, sub]
  {
    var s := top + "/" + sub;
    assert s[..|top|] == top && s[|top|] == '/' && s[|top| + 1..] == sub;
    FirstIndexIs(s, '/', |top|);
    SplitUnfold(s, '/');
  }

  /** Every accepted type splits into "image" and a subtype word. */
  lemma SplitAllowed(mime: string)
    requires mime in AllowedTypes
    ensures |Split(mime, '/')| == 2
    ensures mime == "image/" + Split(mime, '/')[1]
    ensures Split(mime, '/')[1] in ["jpeg", "png", "gif", "webp"]
  {
    var sub: string;
    if mime == "image/jpeg" {
      sub := "jpeg";
    } else if mime == "image/png" {
      sub := "png";
    } else if mime == "image/gif" {
      sub := "gif";
    } else {
      sub := "webp";
    }
    assert "image" + "/" + sub == "image/" + sub;
    assert mime == "image" + "/" + sub;
    SplitMimeType("image", sub);
    assert Split(mime, '/')[1] == sub;
  }

  /** `type.split('/')[1]` for an accepted type: the part after "image/". */
  function Subtype(mime: string): (r: string)
    requires mime in AllowedTypes
    ensures mime == "image/" + r
    ensures r in ["jpeg", "png", "gif", "webp"]
  {
    SplitAllowed(mime);
    Split(mime, '/')[1]
  }

  /** The bucket key `tribute-<Date.now()>-<random>.<subtype>`. */
  function UploadKey(now: nat, rand: string, mime: string): string
    requires mime in AllowedTypes
  {
    "tribute-" + (Decimal(now) + ("-" + (rand + ("." + Subtype(mime)))))
  }

  /** The path the image is served from. */
  function ImageUrl(now: nat, rand: string, mime: string): string
    requires mime in AllowedTypes
  {
    "/api/images/" + UploadKey(now, rand, mime)
  }

  /** The body of a successful submission: the new row id and the confirmation. */
  datatype Submitted = Submitted(id: int, message: string)

  datatype IntakeResult = IntakeResult(response: Response<Submitted>, db: Option<Db>, bucket: Option<Bucket>)

  /** The row the route inserts; `created_at` is the table's default, the current instant. */
  function NewTribute(f: TributeForm, id: int, imageUrl: Option<string>, now: Instant): (t: Tribute)
    requires f.message.Some? && (Anonymous(f) || f.name.Some?)
    ensures t.id == id && t.message == f.message.value && t.imageUrl == imageUrl && t.createdAt == now
    ensures t.name == if Anonymous(f) then "Anonymous" else f.name.value
    ensures t.email == OrNull(f.email) && t.phone == OrNull(f.phone)
    ensures !t.approved && t.approvedAt.None? && t.adminNotes.None?
  {
    Tribute(id, if Anonymous(f) then "Anonymous" else f.name.value, f.message.value,
            OrNull(f.email), OrNull(f.phone), imageUrl, false, now, None, None)
  }

  /** The form passes the message and name checks. */
  predicate Answered(f: TributeForm) {
    Present(f.message) && (Anonymous(f) || Present(f.name))
  }

  /** The image, if any, passes the size and type checks. */
  predicate ImageAcceptable(f: TributeForm) {
    HasUpload(f) ==> f.image.value.size <= MaxImageBytes && f.image.value.mime in AllowedTypes
  }

  /** The route's checks of the form, in its order: the first refusal, or None when all pass. */
  function Refusal(f: TributeForm): (r: Option<Response<Submitted>>)
    ensures r.None? <==> Answered(f) && ImageAcceptable(f)
    ensures !Present(f.message) ==> r == Some(Fail(BadRequest, MessageRequired))
    ensures Present(f.message) && !Anonymous(f) && !Present(f.name) ==>
      r == Some(Fail(BadRequest, NameRequired))
    ensures Answered(f) && HasUpload(f) && f.image.value.size > MaxImageBytes ==>
      r == Some(Fail(BadRequest, TooLarge))
    ensures Answered(f) && HasUpload(f) && f.image.value.size <= MaxImageBytes && f.image.value.mime !in AllowedTypes ==>
      r == Some(Fail(BadRequest, BadType))
  {
    if !Present(f.message) then Some(Fail(BadRequest, MessageRequired))
    else if !Anonymous(f) && !Present(f.name) then
      Some(Fail(BadRequest, NameRequired))
    else if HasUpload(f) && f.image.value.size > MaxImageBytes then
      Some(Fail(BadRequest, TooLarge))
    else if HasUpload(f) && f.image.value.mime !in AllowedTypes then
      Some(Fail(BadRequest, BadType))
    else None
  }

  /** The bucket after storing the form's image, when there is one and a bucket to put it in. */
  function Stored(f: TributeForm, now: nat, rand: string, bucket: Option<Bucket>): (b: Option<Bucket>)
    requires ImageAcceptable(f)
    ensures b.Some? <==> bucket.Some?
    ensures HasUpload(f) && bucket.Some? ==>
      b == Some(bucket.value[UploadKey(now, rand, f.image.value.mime) := f.image.value.mime])
    ensures !(HasUpload(f) && bucket.Some?) ==> b == bucket
  {
    if HasUpload(f) && bucket.Some? then Some(bucket.value[UploadKey(now, rand, f.image.value.mime) := f.image.value.mime])
    else bucket
  }

  /**
   * What follows the checks: the upload, then the INSERT. A failed upload stops the route
   * before the database is reached; a missing database or a throwing INSERT leaves the image
   * stored.
   */
  function Store(f: TributeForm, now: nat, rand: string, putOk: bool, newId: int, insertOk: bool,
                 db: Option<Db>, bucket: Option<Bucket>): (out: IntakeResult)
    requires Answered(f) && ImageAcceptable(f)
    requires db.Some? ==> newId !in db.value.tributes
    ensures out.response.Ok? <==> (HasUpload(f) && bucket.Some? ==> putOk) && db.Some? && insertOk
    ensures HasUpload(f) && bucket.Some? && !putOk ==>
      out == IntakeResult(Fail(ServerError, UploadFailed), db, bucket)
    ensures (HasUpload(f) && bucket.Some? ==> putOk) && !(db.Some? && insertOk) ==>
      out == IntakeResult(Fail(ServerError, SaveFailed), db, Stored(f, now, rand, bucket))
    ensures out.response.Ok? ==>
      var url := if HasUpload(f) && bucket.Some? then Some(ImageUrl(now, rand, f.image.value.mime)) else None;
      out == IntakeResult(Ok(Submitted(newId, AwaitingApproval)),
                          Some(db.value.(tributes := db.value.tributes[newId := NewTribute(f, newId, url, now)])),
                          Stored(f, now, rand, bucket))
  {
    if HasUpload(f) && bucket.Some? && !putOk then
      IntakeResult(Fail(ServerError, UploadFailed), db, bucket)
    else
      var uploaded := HasUpload(f) && bucket.Some?;
      var url := if uploaded then Some(ImageUrl(now, rand, f.image.value.mime)) else None;
      if db.None? || !insertOk then IntakeResult(Fail(ServerError, SaveFailed), db, Stored(f, now, rand, bucket))
      else
        var row := NewTribute(f, newId, url, now);
        IntakeResult(Ok(Submitted(newId, AwaitingApproval)),
                     Some(db.value.(tributes := db.value.tributes[newId := row])), Stored(f, now, rand, bucket))
  }

  /**
   * `POST /api/tributes`. `form` is None when the body is not a form; `rand` stands for the
   * random base-36 suffix, `putOk` for whether the bucket write succeeds, `newId` for the
   * row id the database assigns, and `insertOk` for whether the INSERT runs without throwing.
   */
  function Submit(form: Option<TributeForm>, now: nat, rand: string, putOk: bool, newId: int, insertOk: bool,
                  db: Option<Db>, bucket: Option<Bucket>): (out: IntakeResult)
    requires db.Some? ==> newId !in db.value.tributes
    ensures form.None? ==> out == IntakeResult(Fail(ServerError, BadForm), db, bucket)
    ensures form.Some? && !Present(form.value.message) ==>
      out == IntakeResult(Fail(BadRequest, MessageRequired), db, bucket)
    ensures form.Some? && Present(form.value.message) && !Anonymous(form.value) && !Present(form.value.name) ==>
      out == IntakeResult(Fail(BadRequest, NameRequired), db, bucket)
    ensures form.Some? && Answered(form.value)
            && HasUpload(form.value) && form.value.image.value.size > MaxImageBytes ==>
      out == IntakeResult(Fail(BadRequest, TooLarge), db, bucket)
    ensures form.Some? && Answered(form.value)
            && HasUpload(form.value) && form.value.image.value.size <= MaxImageBytes
            && form.value.image.value.mime !in AllowedTypes ==>
      out == IntakeResult(Fail(BadRequest, BadType), db, bucket)
    ensures out.response.Ok? <==>
      && form.Some? && Answered(form.value) && ImageAcceptable(form.value)
      && (HasUpload(form.value) && bucket.Some? ==> putOk)
      && db.Some? && insertOk
    ensures out.db.Some? <==> db.Some?
    ensures out.response.Fail? ==> out.db == db
    ensures out.bucket.Some? <==> bucket.Some?
    ensures out.bucket != bucket ==>
      && form.Some? && bucket.Some? && HasUpload(form.value) && form.value.image.value.mime in AllowedTypes
      && out.bucket == Some(bucket.value[UploadKey(now, rand, form.value.image.value.mime)
                                         := form.value.image.value.mime])
    ensures out.response.Ok? ==>
      var f := form.value;
      var url := if HasUpload(f) && bucket.Some? then Some(ImageUrl(now, rand, f.image.value.mime)) else None;
      && out.response.body == Submitted(newId, AwaitingApproval)
      && out.db.value.sessions == db.value.sessions
      && out.db.value.tributes == db.value.tributes[newId := NewTribute(f, newId, url, now)]
      && (HasUpload(f) && bucket.Some? ==>
            out.bucket == Some(bucket.value[UploadKey(now, rand, f.image.value.mime) := f.image.value.mime]))
  {
    if form.None? then IntakeResult(Fail(ServerError, BadForm), db, bucket)
    else
      match Refusal(form.value)
      case Some(refused) => IntakeResult(refused, db, bucket)
      case None => Store(form.value, now, rand, putOk, newId, insertOk, db, bucket)
  }

  /** A submission keeps both table invariants, and the new row waits for approval. */
  lemma SubmitKeepsInvariants(form: Option<TributeForm>, now: nat, rand: string, putOk: bool, newId: int,
                              insertOk: bool, db: Db, bucket: Option<Bucket>)
    requires newId !in db.tributes
    requires WellKeyed(db.tributes) && AllApprovalConsistent(db.tributes)
    ensures var out := Submit(form, now, rand, putOk, newId, insertOk, Some(db), bucket);
      && WellKeyed(out.db.value.tributes) && AllApprovalConsistent(out.db.value.tributes)
      && (out.response.Ok? ==> newId in out.db.value.tributes && !out.db.value.tributes[newId].approved)
      && (out.response.Ok? ==> |out.db.value.tributes| == |db.tributes| + 1)
  {
  }

  /**
   * The image is stored before the database is reached: without a database, or when the
   * INSERT throws, the image stays in the bucket but the submission fails.
   */
  lemma UploadWithoutDatabase(f: TributeForm, now: nat, rand: string, newId: int, insertOk: bool,
                              db: Option<Db>, bucket: Bucket)
    requires Present(f.message) && (Anonymous(f) || Present(f.name))
    requires HasUpload(f) && f.image.value.size <= MaxImageBytes && f.image.value.mime in AllowedTypes
    requires db.None? || !insertOk
    requires db.Some? ==> newId !in db.value.tributes
    ensures var out := Submit(Some(f), now, rand, true, newId, insertOk, db, Some(bucket));
      && out.response == Fail(ServerError, SaveFailed)
      && out.db == db
      && UploadKey(now, rand, f.image.value.mime) in out.bucket.value
  {
  }

  /** An image of exactly 10 MiB passes the size check; one byte more does not. */
  lemma SizeBoundary(f: TributeForm, now: nat, rand: string, newId: int, db: Db)
    requires newId !in db.tributes
    requires Present(f.message) && (Anonymous(f) || Present(f.name))
    requires f.image == Some(ImageFile(10485760, "image/png"))
    ensures Submit(Some(f), now, rand, true, newId, true, Some(db), None).response.Ok?
    ensures Submit(Some(f.(image := Some(ImageFile(10485761, "image/png")))), now, rand, true, newId, true, Some(db), None)
            .response == Fail(BadRequest, TooLarge)
  {
  }

  /** A zero-byte file is ignored: even a disallowed type is accepted and no image is stored. */
  lemma EmptyFileIsNoImage(f: TributeForm, now: nat, rand: string, newId: int, db: Db, bucket: Bucket)
    requires newId !in db.tributes
    requires Present(f.message) && (Anonymous(f) || Present(f.name))
    requires f.image == Some(ImageFile(0, "text/plain"))
    ensures var out := Submit(Some(f), now, rand, true, newId, true, Some(db), Some(bucket));
      && out.response.Ok? && out.bucket == Some(bucket) && out.db.value.tributes[newId].imageUrl.None?
  {
  }

  lemma ConcatEnds(p: string, x: string, q: string)
    ensures StartsWith(p + x, p) && EndsWith(x + q, q)
  {
    assert (p + x)[..|p|] == p;
    assert (x + q)[|x + q| - |q|..] == q;
  }

  /** The stored image path starts with the route prefix and ends with "." and the accepted subtype. */
  lemma ImageUrlShape(now: nat, rand: string, mime: string)
    requires mime in AllowedTypes
    ensures var u := ImageUrl(now, rand, mime);
      StartsWith(u, "/api/images/tribute-") && EndsWith(u, "." + Subtype(mime))
  {
    var sub := Subtype(mime);
    assert ImageUrl(now, rand, mime) == "/api/images/" + ("tribute-" + (Decimal(now) + ("-" + (rand + ("." + sub)))));
    PathShape(Decimal(now), rand, sub);
  }

  lemma PathShape(stamp: string, rand: string, sub: string)
    ensures var u := "/api/images/" + ("tribute-" + (stamp + ("-" + (rand + ("." + sub)))));
      StartsWith(u, "/api/images/tribute-") && EndsWith(u, "." + sub)
  {
    var rest := stamp + ("-" + (rand + ("." + sub)));
    var u := "/api/images/" + ("tribute-" + rest);
    assert u == "/api/images/tribute-" + rest;
    ConcatEnds("/api/images/tribute-", rest, "");
    var head := "/api/images/tribute-" + stamp + "-" + rand;
    assert u == head + ("." + sub);
    ConcatEnds("", head, "." + sub);
  }
}

=== FILE: listing.dfy ===
/**
 * Reading the `tributes` table `ORDER BY created_at DESC`, and the public listing
 * `GET /api/tributes/approved`. SQL leaves the order of equal timestamps open, and so does the model.
 */
module Listing {
  import opened Wrappers
  import opened Http
  import opened Clock
  import opened Records

  predicate SortedNewestFirst(s: seq<Tribute>) {
    forall i, j :: 0 <= i < j < |s| ==> s[i].createdAt >= s[j].createdAt
  }

  /** Where t goes in a newest-first sequence: after every row at least as new. */
  function InsertPos(t: Tribute, s: seq<Tribute>): (p: nat)
    requires SortedNewestFirst(s)
    ensures p <= |s|
    ensures forall i :: 0 <= i < p ==> s[i].createdAt >= t.createdAt
    ensures forall i :: p <= i < |s| ==> s[i].createdAt < t.createdAt
  {
    if |s| == 0 || s[0].createdAt < t.createdAt then 0 else 1 + InsertPos(t, s[1..])
  }

  predicate DistinctIds(s: seq<Tribute>) {
    forall i, j :: 0 <= i < j < |s| ==> s[i].id != s[j].id
  }

  /** `s` with `t` placed at position p. */
  function InsertAt(s: seq<Tribute>, p: nat, t: Tribute): (r: seq<Tribute>)
    requires p <= |s|
    ensures |r| == |s| + 1 && r[p] == t
    ensures forall i :: 0 <= i < p ==> r[i] == s[i]
    ensures forall i :: p < i < |r| ==> r[i] == s[i - 1]
    ensures forall x :: x in r <==> x == t || x in s
  {
    var r := s[..p] + [t] + s[p..];
    assert forall x :: x in s ==> x in r by {
      forall x | x in s ensures x in r {
        var i :| 0 <= i < |s| && s[i] == x;
        if i < p { assert r[i] == x; } else { assert r[i + 1] == x; }
      }
    }
    r
  }

  lemma InsertKeepsSorted(s: seq<Tribute>, t: Tribute)
    requires SortedNewestFirst(s)
    ensures SortedNewestFirst(InsertAt(s, InsertPos(t, s), t))
  {
    var p := InsertPos(t, s);
    var r := InsertAt(s, p, t);
    forall i, j | 0 <= i < j < |r| ensures r[i].createdAt >= r[j].createdAt {
      if j < p {
      } else if j == p {
      } else if i < p {
      } else if i == p {
      } else {
        assert r[i] == s[i - 1] && r[j] == s[j - 1];
      }
    }
  }

  lemma InsertKeepsDistinct(s: seq<Tribute>, p: nat, t: Tribute)
    requires p <= |s| && DistinctIds(s)
    requires forall x :: x in s ==> x.id != t.id
    ensures DistinctIds(InsertAt(s, p, t))
  {
    var r := InsertAt(s, p, t);
    forall i, j | 0 <= i < j < |r| ensures r[i].id != r[j].id {
      if j < p {
      } else if j == p {
        assert r[i] in s;
      } else if i < p {
        assert r[j] == s[j - 1];
      } else if i == p {
        assert r[j] == s[j - 1];
        assert r[j] in s;
      } else {
        assert r[i] == s[i - 1] && r[j] == s[j - 1];
      }
    }
  }

  /** Some member of a non-empty set. */
  method Pick(s: set<int>) returns (k: int)
    requires s != {}
    ensures k in s
  {
    HasMember(s);
    k :| k in s;
  }

  lemma HasMember(s: set<int>)
    requires s != {}
    ensures exists x :: x in s
  {
    if forall x :: x !in s {
      assert false;
    }
  }

  /** All rows of a table, newest first: each stored row exactly once. */
  method SortedRows(m: TributeTable) returns (rows: seq<Tribute>)
    requires WellKeyed(m)
    ensures |rows| == |m|
    ensures SortedNewestFirst(rows)
    ensures forall i :: 0 <= i < |rows| ==> rows[i].id in m && m[rows[i].id] == rows[i]
    ensures DistinctIds(rows)
    ensures forall k :: k in m ==> m[k] in rows
  {
    rows := [];
    var remaining := m.Keys;
    while remaining != {}
      invariant remaining <= m.Keys
      invariant |rows| + |remaining| == |m|
      invariant SortedNewestFirst(rows)
      invariant DistinctIds(rows)
      invariant forall x :: x in rows ==> x.id in m && m[x.id] == x && x.id !in remaining
      invariant forall k :: k in m && k !in remaining ==> m[k] in rows
      decreases |remaining|
    {
      var k := Pick(remaining);
      var t := m[k];
      InsertKeepsSorted(rows, t);
      InsertKeepsDistinct(rows, InsertPos(t, rows), t);
      rows := InsertAt(rows, InsertPos(t, rows), t);
      remaining := remaining - {k};
    }
    assert forall i :: 0 <= i < |rows| ==> rows[i] in rows;
  }

  /** The columns the public listing selects: no email, phone or admin note. */
  datatype PublicTribute = PublicTribute(
    id: int, name: string, message: string, imageUrl: Option<string>,
    createdAt: Instant, approvedAt: Option<Instant>)

  function Project(t: Tribute): (p: PublicTribute)
    ensures p.id == t.id && p.createdAt == t.createdAt
    ensures p.name == t.name && p.message == t.message
    ensures p.imageUrl == t.imageUrl && p.approvedAt == t.approvedAt
  {
    PublicTribute(t.id, t.name, t.message, t.imageUrl, t.createdAt, t.approvedAt)
  }

  /** `WHERE approved = true`, keeping the order. */
  function ApprovedRows(s: seq<Tribute>): (r: seq<Tribute>)
    ensures |r| <= |s|
    ensures forall x :: x in r <==> x in s && x.approved
  {
    if |s| == 0 then []
    else (if s[0].approved then [s[0]] else []) + ApprovedRows(s[1..])
  }

  /** The first row of a newest-first sequence is at least as new as every later one. */
  lemma HeadIsNewest(s: seq<Tribute>)
    requires |s| > 0 && SortedNewestFirst(s)
    ensures forall x :: x in s[1..] ==> x.createdAt <= s[0].createdAt
  {
    forall x | x in s[1..] ensures x.createdAt <= s[0].createdAt {
      var i :| 0 <= i < |s[1..]| && s[1..][i] == x;
      assert s[i + 1] == x;
    }
  }

  /** A row at least as new as every row of a newest-first sequence can go in front of it. */
  lemma SortedCons(h: Tribute, rest: seq<Tribute>)
    requires SortedNewestFirst(rest)
    requires forall x :: x in rest ==> x.createdAt <= h.createdAt
    ensures SortedNewestFirst([h] + rest)
  {
    var r := [h] + rest;
    forall i, j | 0 <= i < j < |r| ensures r[i].createdAt >= r[j].createdAt {
      assert r[j] == rest[j - 1];
      if i > 0 {
        assert r[i] == rest[i - 1];
      } else {
        assert r[j] in rest;
      }
    }
  }

  /** Filtering a newest-first sequence leaves it newest first. */
  lemma {:induction false} ApprovedRowsSorted(s: seq<Tribute>)
    requires SortedNewestFirst(s)
    ensures SortedNewestFirst(ApprovedRows(s))
  {
    if |s| > 0 {
      ApprovedRowsSorted(s[1..]);
      var rest := ApprovedRows(s[1..]);
      if s[0].approved {
        HeadIsNewest(s);
        SortedCons(s[0], rest);
      } else {
        assert ApprovedRows(s) == rest;
      }
    }
  }

  lemma ConsKeepsDistinct(x: Tribute, rest: seq<Tribute>)
    requires DistinctIds(rest)
    requires forall y :: y in rest ==> y.id != x.id
    ensures DistinctIds([x] + rest)
  {
    var r := [x] + rest;
    forall i, j | 0 <= i < j < |r| ensures r[i].id != r[j].id {
      assert r[j] == rest[j - 1];
      if i > 0 { assert r[i] == rest[i - 1]; } else { assert r[j] in rest; }
    }
  }

  /** Filtering keeps rows with distinct ids distinct. */
  lemma {:induction false} ApprovedRowsDistinct(s: seq<Tribute>)
    requires DistinctIds(s)
    ensures DistinctIds(ApprovedRows(s))
  {
    if |s| > 0 {
      assert DistinctIds(s[1..]) by {
        forall i, j | 0 <= i < j < |s[1..]| ensures s[1..][i].id != s[1..][j].id {
          assert s[1..][i] == s[i + 1] && s[1..][j] == s[j + 1];
        }
      }
      ApprovedRowsDistinct(s[1..]);
      var rest := ApprovedRows(s[1..]);
      if s[0].approved {
        forall y | y in rest ensures y.id != s[0].id {
          var i :| 0 <= i < |s[1..]| && s[1..][i] == y;
          assert s[i + 1] == y;
        }
        ConsKeepsDistinct(s[0], rest);
      } else {
        assert ApprovedRows(s) == rest;
      }
    }
  }

  /** The approved rows of a listing, projected. */
  function PublicRows(rows: seq<Tribute>): seq<PublicTribute> {
    var approved := ApprovedRows(rows);
    seq(|approved|, i requires 0 <= i < |approved| => Project(approved[i]))
  }

  lemma PublicRowsFacts(m: TributeTable, rows: seq<Tribute>)
    requires SortedNewestFirst(rows)
    requires forall i :: 0 <= i < |rows| ==> rows[i].id in m && m[rows[i].id] == rows[i]
    requires DistinctIds(rows)
    requires forall k :: k in m ==> m[k] in rows
    ensures var r := PublicRows(rows);
      && (forall i, j :: 0 <= i < j < |r| ==> r[i].createdAt >= r[j].createdAt)
      && (forall i :: 0 <= i < |r| ==> r[i].id in m && m[r[i].id].approved && r[i] == Project(m[r[i].id]))
      && (forall i, j :: 0 <= i < j < |r| ==> r[i].id != r[j].id)
      && (forall k :: k in m && m[k].approved ==> Project(m[k]) in r)
  {
    assert forall i :: 0 <= i < |rows| ==> rows[i] in rows;
    var approved := ApprovedRows(rows);
    ApprovedRowsSorted(rows);
    ApprovedRowsDistinct(rows);
    var r := PublicRows(rows);
    assert forall i :: 0 <= i < |r| ==> r[i] == Project(approved[i]) && r[i].id == approved[i].id;
    assert SortedNewestFirst(approved) && DistinctIds(approved);
    forall k | k in m && m[k].approved ensures Project(m[k]) in r {
      assert m[k] in approved;
      var i :| 0 <= i < |approved| && approved[i] == m[k];
      assert r[i] == Project(m[k]);
    }
    forall i | 0 <= i < |r| ensures r[i].id in m && m[r[i].id].approved && r[i] == Project(m[r[i].id]) {
      assert approved[i] in rows;
      var j :| 0 <= j < |rows| && rows[j] == approved[i];
    }
  }

  /**
   * `GET /api/tributes/approved`: every approved row exactly once, newest first,
   * projected onto the public columns.
   */
  method PublicListing(db: Option<Db>) returns (resp: Response<seq<PublicTribute>>)
    requires db.Some? ==> WellKeyed(db.value.tributes)
    ensures db.None? ==> resp == Fail(ServerError, "Database not available")
    ensures db.Some? ==> resp.Ok?
    ensures resp.Ok? ==> var r := resp.body; var m := db.value.tributes;
      && (forall i, j :: 0 <= i < j < |r| ==> r[i].createdAt >= r[j].createdAt)
      && (forall i :: 0 <= i < |r| ==> r[i].id in m && m[r[i].id].approved && r[i] == Project(m[r[i].id]))
      && (forall i, j :: 0 <= i < j < |r| ==> r[i].id != r[j].id)
      && (forall k :: k in m && m[k].approved ==> Project(m[k]) in r)
  {
    if db.None? {
      return Fail(ServerError, "Database not available");
    }
    var m := db.value.tributes;
    var rows := SortedRows(m);
    var r := PublicRows(rows);
    PublicRowsFacts(m, rows);
    resp := Ok(r);
  }
}

=== FILE: moderation.dfy ===
/**
 * The administrator's tribute routes: `GET /api/admin/tributes` (every row, newest first)
 * and `PATCH /api/admin/tributes` (approve or reject one row, with a note).
 * Both sit behind the session gate of module Sessions.
 */
module Moderation {
  import opened Wrappers
  import opened Http
  import opened Clock
  import opened Records
  import opened Sessions
  import opened Listing

  /**
   * The row after `UPDATE tributes SET approved = ?, approved_at = ?, admin_notes = ? WHERE id = ?`,
   * with `approved_at` now when approving and null when rejecting, and `admin_notes || null`.
   */
  function Moderate(m: TributeTable, id: int, approved: bool, notes: Option<string>, now: Instant): (r: TributeTable)
    ensures r.Keys == m.Keys
    ensures forall k :: k in m && k != id ==> r[k] == m[k]
    ensures id !in m ==> r == m
    ensures id in m ==>
      && r[id].approved == approved
      && (r[id].approvedAt.Some? <==> approved)
      && (approved ==> r[id].approvedAt == Some(now))
      && r[id].adminNotes == OrNull(notes)
      && r[id].(approved := m[id].approved, approvedAt := m[id].approvedAt, adminNotes := m[id].adminNotes) == m[id]
  {
    if id in m then
      m[id := m[id].(approved := approved,
                     approvedAt := if approved then Some(now) else None,
                     adminNotes := OrNull(notes))]
    else m
  }

  /** Moderation keeps every row under its own id. */
  lemma ModerateKeepsWellKeyed(m: TributeTable, id: int, approved: bool, notes: Option<string>, now: Instant)
    requires WellKeyed(m)
    ensures WellKeyed(Moderate(m, id, approved, notes, now))
  {
  }

  /** Moderation keeps `approved` and `approved_at` in step, on every row. */
  lemma ModerateKeepsApprovalConsistent(m: TributeTable, id: int, approved: bool, notes: Option<string>, now: Instant)
    requires AllApprovalConsistent(m)
    ensures AllApprovalConsistent(Moderate(m, id, approved, notes, now))
  {
  }

  /** The later of two updates of the same row decides all three columns. */
  lemma LastPatchWins(m: TributeTable, id: int, a1: bool, n1: Option<string>, t1: Instant,
                      a2: bool, n2: Option<string>, t2: Instant)
    ensures Moderate(Moderate(m, id, a1, n1, t1), id, a2, n2, t2) == Moderate(m, id, a2, n2, t2)
  {
    var once := Moderate(m, id, a1, n1, t1);
    if id in m {
      assert once[id].(approved := a2, approvedAt := if a2 then Some(t2) else None, adminNotes := OrNull(n2))
          == m[id].(approved := a2, approvedAt := if a2 then Some(t2) else None, adminNotes := OrNull(n2));
    }
  }

  /** Rejecting twice is rejecting once, whenever the second request comes. */
  lemma RejectIdempotent(m: TributeTable, id: int, notes: Option<string>, t1: Instant, t2: Instant)
    ensures Moderate(Moderate(m, id, false, notes, t1), id, false, notes, t2) == Moderate(m, id, false, notes, t1)
  {
    LastPatchWins(m, id, false, notes, t1, false, notes, t2);
    assert Moderate(m, id, false, notes, t2) == Moderate(m, id, false, notes, t1);
  }

  /** Updates of two different rows do not interfere. */
  lemma ModerateCommutes(m: TributeTable, i: int, a: bool, n: Option<string>, s: Instant,
                         j: int, b: bool, o: Option<string>, t: Instant)
    requires i != j
    ensures Moderate(Moderate(m, i, a, n, s), j, b, o, t) == Moderate(Moderate(m, j, b, o, t), i, a, n, s)
  {
  }

  /** The JSON body of a PATCH; None when the body is not JSON. */
  datatype PatchBody = PatchBody(id: Option<int>, approved: Option<bool>, adminNotes: Option<string>)

  /** JavaScript truthiness of the `id` field: present and not 0. */
  predicate IdTruthy(id: Option<int>) {
    id.Some? && id.value != 0
  }

  datatype PatchResult = PatchResult(response: Response<string>, db: Option<Db>)

  /** `PATCH /api/admin/tributes`. */
  function Patch(cookie: Option<string>, body: Option<PatchBody>, db: Option<Db>, now: Instant): (out: PatchResult)
    ensures out.response.Ok? <==>
      ValidateAdminSession(cookie, db, now) && body.Some? && IdTruthy(body.value.id) && body.value.approved.Some?
    ensures out.response.Fail? ==> out.db == db
    ensures out.response.Fail? ==>
      out.response == (if !ValidateAdminSession(cookie, db, now) then Fail(Unauthorized, "Unauthorized")
                       else if body.None? then Fail(ServerError, "Failed to update tribute")
                       else Fail(BadRequest, "Invalid request data"))
    ensures out.response.Ok? ==>
      && out.db.Some?
      && out.db.value.sessions == db.value.sessions
      && out.db.value.tributes == Moderate(db.value.tributes, body.value.id.value, body.value.approved.value,
                                           body.value.adminNotes, now)
      && out.response.body == (if body.value.approved.value then "Tribute approved successfully"
                               else "Tribute rejected successfully")
  {
    if !ValidateAdminSession(cookie, db, now) then PatchResult(Fail(Unauthorized, "Unauthorized"), db)
    else if body.None? then PatchResult(Fail(ServerError, "Failed to update tribute"), db)
    else if !IdTruthy(body.value.id) || body.value.approved.None? then
      PatchResult(Fail(BadRequest, "Invalid request data"), db)
    else if db.None? then PatchResult(Fail(ServerError, "Database not available"), db)
    else
      var approved := body.value.approved.value;
      var tributes := Moderate(db.value.tributes, body.value.id.value, approved, body.value.adminNotes, now);
      PatchResult(Ok("Tribute " + (if approved then "approved" else "rejected") + " successfully"),
                  Some(db.value.(tributes := tributes)))
  }

  /** A PATCH keeps both table invariants. */
  lemma PatchKeepsInvariants(cookie: Option<string>, body: Option<PatchBody>, db: Db, now: Instant)
    requires WellKeyed(db.tributes) && AllApprovalConsistent(db.tributes)
    ensures var out := Patch(cookie, body, Some(db), now);
      out.db.Some? && WellKeyed(out.db.value.tributes) && AllApprovalConsistent(out.db.value.tributes)
  {
    var out := Patch(cookie, body, Some(db), now);
    if out.response.Ok? {
      ModerateKeepsWellKeyed(db.tributes, body.value.id.value, body.value.approved.value, body.value.adminNotes, now);
      ModerateKeepsApprovalConsistent(db.tributes, body.value.id.value, body.value.approved.value,
                                      body.value.adminNotes, now);
    }
  }

  /** `GET /api/admin/tributes`: every row, pending and approved, newest first. */
  method AdminListing(cookie: Option<string>, db: Option<Db>, now: Instant) returns (resp: Response<seq<Tribute>>)
    requires db.Some? ==> WellKeyed(db.value.tributes)
    ensures resp.Ok? <==> ValidateAdminSession(cookie, db, now)
    ensures resp.Fail? ==> resp == Fail(Unauthorized, "Unauthorized")
    ensures resp.Ok? ==> var r := resp.body; var m := db.value.tributes;
      && |r| == |m|
      && SortedNewestFirst(r)
      && (forall i :: 0 <= i < |r| ==> r[i].id in m && m[r[i].id] == r[i])
      && DistinctIds(r)
      && (forall k :: k in m ==> m[k] in r)
  {
    if !ValidateAdminSession(cookie, db, now) {
      return Fail(Unauthorized, "Unauthorized");
    }
    var rows := SortedRows(db.value.tributes);
    resp := Ok(rows);
  }
}

=== FILE: records.dfy ===
/** The tables of the site's database: tributes and administrator sessions. */
module Records {
  import opened Wrappers
  import opened Clock

  /** One row of the `tributes` table. */
  datatype Tribute = Tribute(
    id: int,
    name: string,
    message: string,
    email: Option<string>,
    phone: Option<string>,
    imageUrl: Option<string>,
    approved: bool,
    createdAt: Instant,
    approvedAt: Option<Instant>,
    adminNotes: Option<string>)

  /** The `tributes` table, by row id. */
  type TributeTable = map<int, Tribute>

  /** The `admin_sessions` table: session id to expiry instant. */
  type SessionTable = map<string, Instant>

  /** The D1 database binding `env.DB`. */
  datatype Db = Db(tributes: TributeTable, sessions: SessionTable)

  /** Every row is stored under its own id. */
  predicate WellKeyed(m: TributeTable) {
    forall k :: k in m ==> m[k].id == k
  }

  /** A row is approved exactly when it carries an approval time. */
  predicate ApprovalConsistent(t: Tribute) {
    t.approved <==> t.approvedAt.Some?
  }

  predicate AllApprovalConsistent(m: TributeTable) {
    forall k :: k in m ==> ApprovalConsistent(m[k])
  }

  /** JavaScript truthiness of an optional string: present and non-empty. */
  predicate Truthy(o: Option<string>) {
    o.Some? && o.value != ""
  }

  /** `x || null` for an optional string: the empty string becomes null. */
  function OrNull(o: Option<string>): (r: Option<string>)
    ensures r.Some? <==> Truthy(o)
    ensures r.Some? ==> r == o
  {
    if Truthy(o) then o else None
  }

  /** A row with a non-empty image reference. */
  predicate HasImage(t: Tribute) {
    Truthy(t.imageUrl)
  }
}

=== FILE: secrets.dfy ===
/**
 * `GET /api/admin/secrets`: behind the administrator session gate, which of the mail
 * settings are configured, with the API key masked down to its last four characters.
 */
module Secrets {
  import opened Wrappers
  import opened Strings
  import opened Http
  import opened Clock
  import opened Records
  import opened Sessions

  /** The environment variables the route reports on. */
  datatype Env = Env(resendApiKey: Option<string>, adminEmail: Option<string>, fromEmail: Option<string>)

  const NotSet := "Not Set"

  /** JavaScript's `s.slice(-k)` for k > 0: the last k characters, or all of a shorter text. */
  function SliceLast(s: string, k: nat): (r: string)
    ensures |r| == if |s| < k then |s| else k
    ensures r == s[|s| - |r|..]
  {
    if |s| < k then s else s[|s| - k..]
  }

  /** `'******' + key.slice(-4)`. */
  function Mask(key: string): (r: string)
    ensures |r| == 6 + (if |key| < 4 then |key| else 4)
    ensures r[..6] == "******"
    ensures EndsWith(key, r[6..])
  {
    "******" + SliceLast(key, 4)
  }

  /** `x || 'Not Set'`. */
  function OrNotSet(o: Option<string>): (r: string)
    ensures Truthy(o) ==> r == o.value
    ensures !Truthy(o) ==> r == NotSet
  {
    if Truthy(o) then o.value else NotSet
  }

  /** The body of a successful response. */
  datatype SecretsView = SecretsView(resendApiKey: string, adminEmail: string, fromEmail: string)

  function View(env: Env): (v: SecretsView)
    ensures Truthy(env.resendApiKey) ==> v.resendApiKey == Mask(env.resendApiKey.value)
    ensures !Truthy(env.resendApiKey) ==> v.resendApiKey == NotSet
    ensures v.adminEmail == OrNotSet(env.adminEmail) && v.fromEmail == OrNotSet(env.fromEmail)
  {
    SecretsView(if Truthy(env.resendApiKey) then Mask(env.resendApiKey.value) else NotSet,
                OrNotSet(env.adminEmail), OrNotSet(env.fromEmail))
  }

  /**
   * `GET`. `queryThrows` says whether the session query raises, which the route's
   * catch turns into a 500.
   */
  function GetSecrets(cookie: Option<string>, db: Option<Db>, now: Instant, queryThrows: bool, env: Env)
    : (r: Response<SecretsView>)
    ensures r.Ok? <==> Truthy(cookie) && db.Some? && !queryThrows && ValidateAdminSession(cookie, db, now)
    ensures r.Ok? ==> r.body == View(env)
    ensures r.Fail? ==> r == (if Truthy(cookie) && db.Some? && queryThrows
                              then Fail(ServerError, "Failed to fetch secrets")
                              else Fail(Unauthorized, "Unauthorized"))
  {
    if Truthy(cookie) && db.Some? && queryThrows then Fail(ServerError, "Failed to fetch secrets")
    else if !ValidateAdminSession(cookie, db, now) then Fail(Unauthorized, "Unauthorized")
    else Ok(View(env))
  }

  /** A failed gate returns no configuration value at all. */
  lemma NoSessionNoSecrets(cookie: Option<string>, db: Option<Db>, now: Instant, queryThrows: bool, env: Env)
    requires !ValidateAdminSession(cookie, db, now)
    ensures GetSecrets(cookie, db, now, queryThrows, env).Fail?
    ensures !(Truthy(cookie) && db.Some? && queryThrows) ==>
      GetSecrets(cookie, db, now, queryThrows, env).status == Unauthorized
  {
  }

  /** A key of four or more characters shows only its last four; the mask never shows more. */
  lemma MaskRevealsAtMostFour(key: string)
    ensures |key| >= 4 ==> Mask(key) == "******" + key[|key| - 4..]
    ensures |key| < 4 ==> Mask(key) == "******" + key
    ensures |Mask(key)| <= 10
  {
  }

  /** Keys that share their last four characters look the same. */
  lemma MaskDependsOnTail(a: string, b: string)
    requires |a| >= 4 && |b| >= 4 && a[|a| - 4..] == b[|b| - 4..]
    ensures Mask(a) == Mask(b)
  {
  }

  /** An empty setting is reported as unset, like a missing one. */
  lemma EmptyIsNotSet(env: Env)
    requires env.resendApiKey == Some("") && env.adminEmail == Some("") && env.fromEmail == None
    ensures View(env) == SecretsView(NotSet, NotSet, NotSet)
  {
  }
}

=== FILE: session_expiry.dfy ===
/**
 * The expiry test of the session gate on the text actually stored. Login stores
 * `expiresAt.toISOString()` ("2025-03-02T01:00:00.000Z"); the gate compares it with
 * `datetime('now')` ("2025-03-02 05:00:00"). Both are TEXT, so the comparison is by
 * character, and on the expiry date the 'T' beats the ' ' whatever the time of day.
 */
module SessionExpiry {
  import opened Clock

  /** The gate's `expires_at > datetime('now')`, as written. */
  predicate AcceptedAsWritten(expires: DateTime, now: DateTime)
    requires expires.Valid() && now.Valid()
  {
    TextLess(SqlText(now), IsoText(expires))
  }

  /** As written, a session is accepted until the end of its expiry date, not its expiry time. */
  lemma AsWrittenAcceptance(expires: DateTime, now: DateTime)
    requires expires.Valid() && now.Valid()
    ensures AcceptedAsWritten(expires, now) <==> now.SameDate(expires) || Before(now, expires)
  {
    DateTextOrder(now, expires, " " + SqlTimeText(now), "T" + IsoTimeText(expires));
    assert TextLess(" " + SqlTimeText(now), "T" + IsoTimeText(expires));
  }

  /** A session that expired at 01:00 UTC still passes the gate at 05:00 the same day. */
  lemma ExpiredSessionAccepted()
    ensures var expires := DateTime(2025, 3, 2, 1, 0, 0, 0);
            var now := DateTime(2025, 3, 2, 5, 0, 0, 0);
            Before(expires, now) && AcceptedAsWritten(expires, now)
  {
    AsWrittenAcceptance(DateTime(2025, 3, 2, 1, 0, 0, 0), DateTime(2025, 3, 2, 5, 0, 0, 0));
  }

  /** The intended test: the current time in the same ISO form as the stored expiry. */
  predicate AcceptedCorrected(expires: DateTime, now: DateTime)
    requires expires.Valid() && now.Valid()
  {
    TextLess(IsoText(now), IsoText(expires))
  }

  /** Corrected, a session is accepted exactly while its expiry lies in the future. */
  lemma CorrectedAcceptance(expires: DateTime, now: DateTime)
    requires expires.Valid() && now.Valid()
    ensures AcceptedCorrected(expires, now) <==> Before(now, expires)
  {
    IsoTextOrder(now, expires);
  }
}

=== FILE: sessions.dfy ===
/**
 * Administrator sessions: the session gate shared by the admin routes (`validateAdminSession`),
 * login (`POST /api/auth/login`) and logout (`POST /api/auth/logout`).
 * Expiry is compared on instants here; the text comparison the SQL really performs is
 * modelled in module SessionExpiry.
 */
module Sessions {
  import opened Wrappers
  import opened Http
  import opened Clock
  import opened Records

  /** A session lives 24 hours from login. */
  const SessionLifetimeMs: int := 24 * 60 * 60 * 1000

  /**
   * The rows `SELECT id FROM admin_sessions WHERE id = ? AND expires_at > datetime('now')`
   * returns, with the comparison read as one on instants (the corrected test).
   */
  function LiveSessionsWithId(sessions: SessionTable, id: string, now: Instant): set<string> {
    set k | k in sessions && k == id && sessions[k] > now
  }

  /**
   * `validateAdminSession`: a non-empty `admin_session` cookie, an available database, and
   * a session row with that id whose expiry lies after now.
   */
  function ValidateAdminSession(cookie: Option<string>, db: Option<Db>, now: Instant): (ok: bool)
    ensures ok <==> Truthy(cookie) && db.Some? && cookie.value in db.value.sessions
                    && db.value.sessions[cookie.value] > now
  {
    if !Truthy(cookie) then false
    else if db.None? then false
    else
      var rows := LiveSessionsWithId(db.value.sessions, cookie.value, now);
      assert cookie.value in db.value.sessions && db.value.sessions[cookie.value] > now
        ==> cookie.value in rows;
      rows != {}
  }

  /** The cookie the routes set: its value and its expiry instant. */
  datatype Cookie = Cookie(value: string, expires: Instant)

  /** The JSON body of a login request; None when the body is not JSON. */
  datatype LoginBody = LoginBody(password: Option<string>)

  datatype LoginResult = LoginResult(response: Response<string>, db: Option<Db>, cookie: Option<Cookie>)

  /**
   * `POST /api/auth/login`. `matches` stands for `bcrypt.compare`, `newId` for the `uuidv4()`
   * value, `hash` for `TRIBUTE_ADMIN_PASSWORD_HASH`.
   */
  function Login(body: Option<LoginBody>, hash: Option<string>, matches: (string, string) -> bool,
                 newId: string, now: Instant, db: Option<Db>): (out: LoginResult)
    requires db.Some? ==> newId !in db.value.sessions
    ensures out.response.Ok? <==>
      body.Some? && Truthy(body.value.password) && Truthy(hash)
      && matches(body.value.password.value, hash.value)
    ensures out.response.Fail? ==> out.db == db && out.cookie.None?
    ensures out.response.Fail? ==>
              out.response.status == (if body.None? then ServerError
                                      else if !Truthy(body.value.password) then BadRequest
                                      else if !Truthy(hash) then ServerError
                                      else Unauthorized)
    ensures out.response.Ok? ==> out.cookie == Some(Cookie(newId, now + SessionLifetimeMs))
    ensures out.db.Some? <==> db.Some?
    ensures out.response.Ok? && db.Some? ==>
      && out.db.value.tributes == db.value.tributes
      && out.db.value.sessions.Keys == db.value.sessions.Keys + {newId}
      && out.db.value.sessions[newId] == out.cookie.value.expires
  {
    if body.None? then LoginResult(Fail(ServerError, "Internal server error"), db, None)
    else if !Truthy(body.value.password) then LoginResult(Fail(BadRequest, "Password is required"), db, None)
    else if !Truthy(hash) then
      LoginResult(Fail(ServerError, "Admin authentication not configured"), db, None)
    else if !matches(body.value.password.value, hash.value) then
      LoginResult(Fail(Unauthorized, "Invalid password"), db, None)
    else
      var expiresAt := now + SessionLifetimeMs;
      var db' := if db.Some? then Some(db.value.(sessions := db.value.sessions[newId := expiresAt])) else None;
      LoginResult(Ok("Logged in successfully"), db', Some(Cookie(newId, expiresAt)))
  }

  /** Login only inserts: every existing session keeps its expiry. */
  lemma LoginKeepsSessions(body: Option<LoginBody>, hash: Option<string>, matches: (string, string) -> bool,
                           newId: string, now: Instant, db: Db)
    requires newId !in db.sessions
    ensures var out := Login(body, hash, matches, newId, now, Some(db));
      forall k :: k in db.sessions ==> k in out.db.value.sessions && out.db.value.sessions[k] == db.sessions[k]
    ensures var out := Login(body, hash, matches, newId, now, Some(db));
      |out.db.value.sessions| == |db.sessions| + (if out.response.Ok? then 1 else 0)
  {
  }

  /** Right after a successful login the new cookie passes the session gate. */
  lemma LoginThenValid(body: Option<LoginBody>, hash: Option<string>, matches: (string, string) -> bool,
                       newId: string, now: Instant, db: Db)
    requires newId !in db.sessions && newId != ""
    requires Login(body, hash, matches, newId, now, Some(db)).response.Ok?
    ensures var out := Login(body, hash, matches, newId, now, Some(db));
      ValidateAdminSession(Some(out.cookie.value.value), out.db, now)
  {
  }

  /** Without a database login still reports success, but its cookie never passes the gate. */
  lemma LoginWithoutDatabase(body: Option<LoginBody>, hash: Option<string>, matches: (string, string) -> bool,
                             newId: string, now: Instant, later: Instant)
    ensures var out := Login(body, hash, matches, newId, now, None);
      out.db.None? && !ValidateAdminSession(Some(newId), out.db, later)
  {
  }

  datatype LogoutResult = LogoutResult(response: Response<string>, db: Option<Db>, cookie: Cookie)

  /** `POST /api/auth/logout`: delete the cookie's session row, then clear the cookie. */
  function Logout(cookie: Option<string>, db: Option<Db>): (out: LogoutResult)
    ensures out.response == Ok("Logged out successfully")
    ensures out.cookie == Cookie("", 0)
    ensures out.db.Some? <==> db.Some?
    ensures !Truthy(cookie) ==> out.db == db
    ensures db.Some? ==> out.db.value.tributes == db.value.tributes
    ensures db.Some? && Truthy(cookie) ==>
      && out.db.value.sessions.Keys == db.value.sessions.Keys - {cookie.value}
      && forall k :: k in out.db.value.sessions ==> out.db.value.sessions[k] == db.value.sessions[k]
  {
    var db' := if Truthy(cookie) && db.Some? then Some(db.value.(sessions := db.value.sessions - {cookie.value}))
               else db;
    LogoutResult(Ok("Logged out successfully"), db', Cookie("", 0))
  }

  /** A second logout with the same cookie changes nothing more. */
  lemma LogoutIdempotent(cookie: Option<string>, db: Option<Db>)
    ensures Logout(cookie, Logout(cookie, db).db) == Logout(cookie, db)
  {
    if Truthy(cookie) && db.Some? {
      var once := db.value.sessions - {cookie.value};
      assert once - {cookie.value} == once;
    }
  }

  /** After logout the cookie's session id no longer passes the gate, at any time. */
  lemma LogoutInvalidates(cookie: Option<string>, db: Option<Db>, later: Instant)
    ensures !ValidateAdminSession(cookie, Logout(cookie, db).db, later)
  {
  }
}

=== FILE: strings.dfy ===
/** The JavaScript string operations the site relies on, on strings of Unicode scalar values. */
module Strings {

  /** The regular-expression class [a-zA-Z0-9]. */
  predicate IsAsciiAlnum(c: char) {
    ('a' <= c <= 'z') || ('A' <= c <= 'Z') || ('0' <= c <= '9')
  }

  predicate IsAsciiUpper(c: char) {
    'A' <= c <= 'Z'
  }

  predicate IsDigit(c: char) {
    '0' <= c <= '9'
  }

  /** A lower-case letter or a digit: the characters of a lower-cased [a-zA-Z0-9] run. */
  predicate IsLowerAlnum(c: char) {
    ('a' <= c <= 'z') || ('0' <= c <= '9')
  }

  /** `toLowerCase` on one character, restricted to the ASCII letters. */
  function LowerChar(c: char): (r: char)
    ensures !IsAsciiUpper(r)
    ensures IsAsciiAlnum(c) ==> IsLowerAlnum(r)
    ensures IsAsciiUpper(c) ==> r as int == c as int + 32
    ensures !IsAsciiUpper(c) ==> r == c
  {
    if IsAsciiUpper(c) then (c as int + 32) as char else c
  }

  function ToLower(s: string): (r: string)
    ensures |r| == |s|
    ensures forall i :: 0 <= i < |s| ==> r[i] == LowerChar(s[i])
  {
    seq(|s|, i requires 0 <= i < |s| => LowerChar(s[i]))
  }

  /** Lower-casing twice is lower-casing once. */
  lemma ToLowerIdempotent(s: string)
    ensures ToLower(ToLower(s)) == ToLower(s)
  {
  }

  /** WhiteSpace and LineTerminator of ECMAScript, the characters `trim` removes. */
  predicate IsJsWhitespace(c: char) {
    var k := c as int;
    k == 0x09 || k == 0x0A || k == 0x0B || k == 0x0C || k == 0x0D || k == 0x20 || k == 0xA0
    || k == 0x1680 || (0x2000 <= k <= 0x200A) || k == 0x2028 || k == 0x2029 || k == 0x202F
    || k == 0x205F || k == 0x3000 || k == 0xFEFF
  }

  /** Every character is whitespace: what `!s.trim()` tests. */
  predicate IsBlank(s: string) {
    forall i :: 0 <= i < |s| ==> IsJsWhitespace(s[i])
  }

  /** Neither end is whitespace. */
  predicate IsTrimmed(s: string) {
    |s| == 0 || (!IsJsWhitespace(s[0]) && !IsJsWhitespace(s[|s| - 1]))
  }

  /** Length of the leading whitespace run. */
  function LeadingSpace(s: string): (k: nat)
    ensures k <= |s|
    ensures forall i :: 0 <= i < k ==> IsJsWhitespace(s[i])
    ensures k < |s| ==> !IsJsWhitespace(s[k])
  {
    if |s| > 0 && IsJsWhitespace(s[0]) then 1 + LeadingSpace(s[1..]) else 0
  }

  /** Length of the trailing whitespace run. */
  function TrailingSpace(s: string): (k: nat)
    ensures k <= |s|
    ensures forall i :: |s| - k <= i < |s| ==> IsJsWhitespace(s[i])
    ensures k < |s| ==> !IsJsWhitespace(s[|s| - 1 - k])
  {
    if |s| > 0 && IsJsWhitespace(s[|s| - 1]) then 1 + TrailingSpace(s[..|s| - 1]) else 0
  }

  /** `String.prototype.trim`: the input with both whitespace runs cut off. */
  function Trim(s: string): (r: string)
    ensures IsTrimmed(r)
    ensures |r| <= |s|
    ensures exists i, j :: 0 <= i <= j <= |s| && r == s[i..j] && IsBlank(s[..i]) && IsBlank(s[j..])
  {
    var k := LeadingSpace(s);
    var t := s[k..];
    var r := t[..|t| - TrailingSpace(t)];
    assert r == s[k..|s| - TrailingSpace(t)];
    assert s[|s| - TrailingSpace(t)..] == t[|t| - TrailingSpace(t)..];
    r
  }

  lemma {:induction false} LeadingAllIffBlank(s: string)
    ensures LeadingSpace(s) == |s| <==> IsBlank(s)
  {
    if |s| > 0 && IsJsWhitespace(s[0]) {
      LeadingAllIffBlank(s[1..]);
      assert IsBlank(s) <==> IsBlank(s[1..]) by {
        assert forall i :: 0 < i < |s| ==> s[i] == s[1..][i - 1];
      }
    }
  }

  lemma {:induction false} BlankAfterLeading(s: string)
    ensures IsBlank(s[LeadingSpace(s)..]) ==> LeadingSpace(s) == |s|
  {
    if |s| > 0 && IsJsWhitespace(s[0]) {
      BlankAfterLeading(s[1..]);
      assert s[LeadingSpace(s)..] == s[1..][LeadingSpace(s[1..])..];
    }
  }

  lemma {:induction false} TrailingAllIffBlank(s: string)
    ensures TrailingSpace(s) == |s| <==> IsBlank(s)
  {
    if |s| > 0 && IsJsWhitespace(s[|s| - 1]) {
      TrailingAllIffBlank(s[..|s| - 1]);
      assert IsBlank(s) <==> IsBlank(s[..|s| - 1]) by {
        assert forall i :: 0 <= i < |s| - 1 ==> s[i] == s[..|s| - 1][i];
      }
    }
  }

  /** `!s.trim()` holds exactly for the blank strings. */
  lemma TrimEmptyIffBlank(s: string)
    ensures Trim(s) == "" <==> IsBlank(s)
  {
    var t := s[LeadingSpace(s)..];
    LeadingAllIffBlank(s);
    BlankAfterLeading(s);
    TrailingAllIffBlank(t);
  }

  /** A trimmed string is its own trim. */
  lemma TrimOfTrimmed(s: string)
    requires IsTrimmed(s)
    ensures Trim(s) == s
  {
    if |s| > 0 {
      assert LeadingSpace(s) == 0;
      assert TrailingSpace(s) == 0;
    }
  }

  /** ASCII lower-casing does not touch whitespace, so it keeps a string trimmed. */
  lemma ToLowerKeepsTrimmed(s: string)
    requires IsTrimmed(s)
    ensures IsTrimmed(ToLower(s))
  {
  }

  /** `s.substring(0, n)` for n >= 0. */
  function Prefix(s: string, n: nat): (r: string)
    ensures |r| == if n <= |s| then n else |s|
    ensures r <= s
  {
    if n <= |s| then s[..n] else s
  }

  predicate StartsWith(s: string, p: string) {
    |p| <= |s| && s[..|p|] == p
  }

  predicate EndsWith(s: string, p: string) {
    |p| <= |s| && s[|s| - |p|..] == p
  }

  predicate OccursAt(s: string, p: string, i: int) {
    0 <= i <= |s| - |p| && s[i..i + |p|] == p
  }

  /** `s.includes(p)`. */
  predicate Contains(s: string, p: string) {
    exists i :: 0 <= i <= |s| - |p| && OccursAt(s, p, i)
  }

  function Count(s: string, c: char): (n: nat)
    ensures n <= |s|
  {
    if |s| == 0 then 0 else (if s[0] == c then 1 else 0) + Count(s[1..], c)
  }

  lemma CountAppend(a: string, b: string, c: char)
    ensures Count(a + b, c) == Count(a, c) + Count(b, c)
  {
    if |a| == 0 {
      assert a + b == b;
    } else {
      assert (a + b)[0] == a[0];
      assert (a + b)[1..] == a[1..] + b;
      CountAppend(a[1..], b, c);
    }
  }

  lemma CountZeroIffAbsent(s: string, c: char)
    ensures Count(s, c) == 0 <==> c !in s
  {
    if |s| > 0 {
      CountZeroIffAbsent(s[1..], c);
      assert s == [s[0]] + s[1..];
    }
  }

  /** `s.replace(/c/g, rep)` for a single character c. */
  function ReplaceAll(s: string, c: char, rep: string): (r: string)
    ensures |r| == |s| + Count(s, c) * (|rep| - 1)
  {
    if |s| == 0 then ""
    else (if s[0] == c then rep else [s[0]]) + ReplaceAll(s[1..], c, rep)
  }

  lemma {:induction false} ReplaceAllAppend(a: string, b: string, c: char, rep: string)
    ensures ReplaceAll(a + b, c, rep) == ReplaceAll(a, c, rep) + ReplaceAll(b, c, rep)
  {
    if |a| == 0 {
      assert a + b == b;
    } else {
      assert (a + b)[0] == a[0];
      assert (a + b)[1..] == a[1..] + b;
      ReplaceAllAppend(a[1..], b, c, rep);
    }
  }

  lemma {:induction false} ReplaceAllAbsent(s: string, c: char, rep: string)
    requires c !in s
    ensures ReplaceAll(s, c, rep) == s
  {
    if |s| > 0 {
      assert c !in s[1..];
      ReplaceAllAbsent(s[1..], c, rep);
    }
  }

  /** First position of c in s. */
  function FirstIndex(s: string, c: char): (i: nat)
    requires c in s
    ensures i < |s| && s[i] == c && c !in s[..i]
  {
    if s[0] == c then 0
    else
      assert c in s[1..] by { assert s == [s[0]] + s[1..]; }
      var j := FirstIndex(s[1..], c);
      assert s[..j + 1] == [s[0]] + s[1..][..j];
      1 + j
  }

  lemma {:induction false} FirstIndexIs(s: string, c: char, k: nat)
    requires k < |s| && s[k] == c && c !in s[..k]
    ensures FirstIndex(s, c) == k
  {
    if k > 0 {
      assert s[0] in s[..k];
      assert s[1..][k - 1] == c;
      assert s[1..][..k - 1] == s[1..k];
      assert c !in s[1..k] by { assert s[1..k] == s[..k][1..]; }
      FirstIndexIs(s[1..], c, k - 1);
    }
  }

  /** `s.split(sep)` for a single-character separator. */
  function Split(s: string, sep: char): (parts: seq<string>)
    ensures |parts| > 0
    decreases |s|
  {
    if sep !in s then [s]
    else
      var i := FirstIndex(s, sep);
      [s[..i]] + Split(s[i + 1..], sep)
  }

  /** No piece of a split holds the separator. */
  lemma {:induction false} SplitPiecesSepFree(s: string, sep: char)
    ensures forall i :: 0 <= i < |Split(s, sep)| ==> sep !in Split(s, sep)[i]
    decreases |s|
  {
    if sep in s {
      var i := FirstIndex(s, sep);
      SplitPiecesSepFree(s[i + 1..], sep);
      SplitUnfold(s, sep);
      SepFreeCons(s[..i], Split(s[i + 1..], sep), Split(s, sep), sep);
    }
  }

  /** A separator-free piece in front of separator-free pieces. */
  lemma SepFreeCons(p: string, rest: seq<string>, parts: seq<string>, sep: char)
    requires parts == [p] + rest && sep !in p
    requires forall k :: 0 <= k < |rest| ==> sep !in rest[k]
    ensures forall k :: 0 <= k < |parts| ==> sep !in parts[k]
  {
    assert forall k :: 1 <= k < |parts| ==> parts[k] == rest[k - 1];
  }

  /** There is one more piece than there are separators. */
  lemma {:induction false} SplitCount(s: string, sep: char)
    ensures |Split(s, sep)| == Count(s, sep) + 1
    decreases |s|
  {
    if sep !in s {
      CountZeroIffAbsent(s, sep);
    } else {
      var i := FirstIndex(s, sep);
      SplitCount(s[i + 1..], sep);
      assert s == s[..i] + [sep] + s[i + 1..];
      CountAppend(s[..i] + [sep], s[i + 1..], sep);
      CountAppend(s[..i], [sep], sep);
      CountZeroIffAbsent(s[..i], sep);
    }
  }

  function Last(parts: seq<string>): string
    requires |parts| > 0
  {
    parts[|parts| - 1]
  }

  /** One step of a split: the piece before the first separator, then the split of the rest. */
  lemma SplitUnfold(s: string, sep: char)
    requires sep in s
    ensures var i := FirstIndex(s, sep);
      Split(s, sep) == [s[..i]] + Split(s[i + 1..], sep)
  {
    assert !(sep !in s);
  }

  /** A suffix of a suffix is a suffix. */
  lemma SuffixOfSuffix(s: string, j: nat, m: nat)
    requires j <= |s| && m <= |s| - j
    ensures s[j..][|s| - j - m..] == s[|s| - m..]
  {
  }

  /** What `IsSuffix(l, s)` says: l is the last |l| characters of s. */
  predicate IsSuffix(l: string, s: string) {
    |l| <= |s| && s[|s| - |l|..] == l
  }

  /** A piece in front of pieces whose last one ends the text after position i. */
  lemma LastPieceStep(s: string, i: nat, parts: seq<string>, rest: seq<string>)
    requires i < |s| && |rest| > 0 && parts == [s[..i]] + rest
    requires IsSuffix(Last(rest), s[i + 1..])
    ensures IsSuffix(Last(parts), s)
  {
    assert Last(parts) == Last(rest);
    SuffixOfSuffix(s, i + 1, |Last(rest)|);
  }

  /** One step: the last piece of the split of s is that of the text after its first separator. */
  lemma SplitLastStep(s: string, sep: char)
    requires sep in s
    requires IsSuffix(Last(Split(s[FirstIndex(s, sep) + 1..], sep)), s[FirstIndex(s, sep) + 1..])
    ensures IsSuffix(Last(Split(s, sep)), s)
  {
    var i := FirstIndex(s, sep);
    SplitUnfold(s, sep);
    LastPieceStep(s, i, Split(s, sep), Split(s[i + 1..], sep));
  }

  /** The last piece of a split is a suffix of the string (what `split(sep).pop()` yields). */
  lemma {:induction false} SplitLastIsSuffix(s: string, sep: char)
    ensures IsSuffix(Last(Split(s, sep)), s)
    decreases |s|
  {
    if sep in s {
      SplitLastIsSuffix(s[FirstIndex(s, sep) + 1..], sep);
      SplitLastStep(s, sep);
    } else {
      assert s[0..] == s;
    }
  }

  /** `parts.join(sep)`. */
  function Join(parts: seq<string>, sep: char): string
    requires |parts| > 0
  {
    if |parts| == 1 then parts[0] else parts[0] + [sep] + Join(parts[1..], sep)
  }

  /** Joining a piece in front of further pieces puts one separator between them. */
  lemma JoinCons(p: string, rest: seq<string>, sep: char)
    requires |rest| > 0
    ensures Join([p] + rest, sep) == p + [sep] + Join(rest, sep)
  {
    assert ([p] + rest)[1..] == rest;
  }

  /** A piece, the separator at i, and pieces that join to the rest join to the whole text. */
  lemma JoinStep(s: string, sep: char, i: nat, parts: seq<string>, rest: seq<string>)
    requires i < |s| && s[i] == sep && |rest| > 0 && parts == [s[..i]] + rest
    requires Join(rest, sep) == s[i + 1..]
    ensures Join(parts, sep) == s
  {
    JoinCons(s[..i], rest, sep);
    assert s == s[..i] + [sep] + s[i + 1..];
  }

  /** Joining the pieces of a split gives the string back. */
  lemma {:induction false} JoinSplit(s: string, sep: char)
    ensures Join(Split(s, sep), sep) == s
    decreases |s|
  {
    if sep in s {
      var i := FirstIndex(s, sep);
      JoinSplit(s[i + 1..], sep);
      SplitUnfold(s, sep);
      JoinStep(s, sep, i, Split(s, sep), Split(s[i + 1..], sep));
    }
  }

  /** Splitting a join of separator-free pieces gives the pieces back. */
  lemma {:induction false} SplitJoin(parts: seq<string>, sep: char)
    requires |parts| > 0
    requires forall i :: 0 <= i < |parts| ==> sep !in parts[i]
    ensures Split(Join(parts, sep), sep) == parts
    decreases |parts|
  {
    if |parts| > 1 {
      var s := Join(parts, sep);
      var tail := Join(parts[1..], sep);
      assert s == parts[0] + [sep] + tail;
      assert s[|parts[0]|] == sep;
      assert sep in s;
      assert s[..|parts[0]|] == parts[0];
      FirstIndexIs(s, sep, |parts[0]|);
      var i := FirstIndex(s, sep);
      assert s[..i] == parts[0];
      assert s[i + 1..] == tail;
      SplitJoin(parts[1..], sep);
    }
  }
}

=== FILE: wrappers.dfy ===
/** Optional values, standing for the source's `undefined` / `null`. */
module Wrappers {

  datatype Option<+T> = None | Some(value: T) {

    /** Returns the value inside Some, or the default when None. */
    function GetOr(default: T): T {
      match this
      case Some(v) => v
      case None => default
    }
  }
}

/** HTTP responses as the route handlers return them: a JSON body or an error with a status. */
module Http {

  const BadRequest: int := 400
  const Unauthorized: int := 401
  const ServerError: int := 500

  datatype Response<+T> = Ok(body: T) | Fail(status: int, error: string)
}
